=== FILE: README.md ===
# Agenda Tech Brasil: the event filter, in Dafny

Agenda Tech Brasil is a calendar of Brazilian tech events. Its data is a
tree: years hold months, and months hold events. Each event has a name,
day markers, a URL, a city, a state and a modality. The only logic outside
the user interface is the filter that prunes this tree and a handful of
helpers around it. This project models that logic and proves what it does.

The filter keeps a year when its decimal string equals the selected year,
and a month when its lower-cased name equals the selected month. It keeps
an event when:
- its lower-cased city contains the location text;
- its lower-cased modality equals the selected modality;
- its anchor date is not before the start date and not after the end date.

The anchor date is `new Date(ano, monthIndex, Number(data[0]))`. The filter
then drops months left without events, and years left without months.

The source holds three copies of this filter. `Engine` defines it once,
parameterised by a `Variant`:
- `EventUtils` is the library copy. It filters by month, reads month indices
  from `MONTH_MAP`, and falls back with `|| 0`.
- `FilterEventsComponent` is the copy the event list uses. It has no month
  filter, and its March key is mis-encoded: it is read here as the string
  "marÃ§o".
- `HomePage` has no month filter either. Its table lacks "marco", and it
  falls back with `?? 0`.

The relations between the copies are proved as lemmas.

JavaScript semantics are modelled explicitly:
- `Date` values are milliseconds since the epoch, or the Invalid Date. A
  comparison with the Invalid Date is false.
- `new Date(y, m, d)` is local midnight under a fixed offset `tz`, in
  minutes, positive west of UTC. Month and day overflow roll over as in the
  MakeDay operation of ECMAScript. Years 0 to 99 mean 1900 to 1999.
- `new Date("YYYY-MM-DD")` is UTC midnight of that day. A day that does not
  exist, such as "2023-02-30", is the Invalid Date here; engines differ on
  it, and a date input never produces one.
- `Number` reads an optional sign and decimal digits, with "" as 0, and
  anything else is NaN. `parseInt` reads the leading digits, so "10abc" is
  10, and is NaN when there are none.
- Lower-casing, upper-casing and NFD accent stripping act on ASCII and
  Latin-1 characters.

A start and an end date picker read as an inclusive range. As written,
the bounds are UTC midnights and the anchor is a local midnight, so the
range is inclusive at both ends only at offset 0. The model follows the
code; see Findings.

Modules:
- `Strings`, `Sequences`, `Options`, `Numbers` and `Calendar` are the
  JavaScript building blocks.
- `Types` holds the event tree and its flattened view.
- `Constants` holds the constants and what they promise.
- `Engine` is the shared filter.
- The remaining modules are the entry points of each source file.

## Model

| member | source | states |
|---|---|---|
| Strings.Includes | src/lib/eventUtils.ts:77 | `includes` holds exactly when some suffix of the string starts with the searched text |
| Strings.StripAccentsDecomposed | src/lib/dateUtils.ts:9-10 | after NFD and removing combining marks, every character is its own base letter; lower-case input stays lower-case |
| Sequences.Distinct | src/lib/eventUtils.ts:27 | spreading a `Set` gives a duplicate-free list with the same members, in order of first occurrence |
| Numbers.NumberOf | src/lib/eventUtils.ts:92 | `Number` reads "" as 0, digits with an optional minus sign as their value, and a string that starts with neither a digit nor a sign as NaN |
| Numbers.ParseInt | src/lib/dateUtils.ts:33 | `parseInt` of a string starting with a digit is the value of its leading digits; "" and a string starting with neither a digit nor a sign give NaN |
| Numbers.IntToStringInjective | src/lib/eventUtils.ts:62 | two years have the same decimal string exactly when they are equal |
| Numbers.NumberOfIntToString | src/lib/eventUtils.ts:62 | reading back the decimal string of a year gives the year |
| Calendar.ConstructorYear | src/lib/eventUtils.ts:93-97 | the year `new Date` uses is never a two-digit year: 0..99 become 1900..1999 with the same last two digits, and no other year changes |
| Calendar.NewDate | src/lib/eventUtils.ts:93-97 | `new Date(y, m, d)` is the Invalid Date exactly when a component is NaN, and otherwise a local midnight |
| Calendar.ParseDay | src/lib/eventUtils.ts:99 | a date-only string that names a day is ten characters long; `ParseDateInputValue` gives the round trip |
| Calendar.ParseDate | src/lib/eventUtils.ts:99-105 | `new Date("YYYY-MM-DD")` is a time value exactly when the string names a day, and then a UTC midnight |
| Calendar.MonthLength | src/lib/eventUtils.ts:93-97 | the first of the next month is the first of this month plus its length, leap years included |
| Calendar.RollOver | src/lib/eventUtils.ts:93-97 | a day past the end of a month is the matching day of the next month |
| Calendar.ParseDateInputValue | src/lib/eventUtils.ts:99 | a date input value parses back to the calendar day it was written for |
| Constants.MonthNamesIndexed | src/lib/constants.ts:5-34 | twelve month names, and the map sends each name to its own position |
| Constants.MonthMapOnto | src/lib/constants.ts:20-34 | every map value is a month index 0..11, and every month index is reached |
| Constants.MarchSpellings | src/lib/constants.ts:23-24 | "março" and "marco" both map to 2, and they are the only keys that share a value |
| Constants.EventTypesHaveColors | src/lib/constants.ts:36-47 | the three modalities are distinct, and each has a badge colour other than the default one |
| Engine.FallbacksAgree | src/app/page.tsx:73 | on a table of numbers, the nullish and the logical-or fallback give the same month index: the entry, or else 0 |
| Engine.FilterEvents | src/lib/eventUtils.ts:73-109 | the kept events are an ordered subsequence of the month's events, and each passes location, modality and date |
| Engine.PruneMonths | src/lib/eventUtils.ts:65-111 | the months left are an ordered selection with fields copied; each passes the month test and is non-empty |
| Engine.PruneYears | src/lib/eventUtils.ts:61-113 | the years left are an ordered selection with fields copied, and every node passes and is non-empty |
| Engine.Apply | src/lib/eventUtils.ts:61-113 | the result is an order-preserving sub-tree of the input with no empty group |
| Engine.SelectMembers | src/lib/eventUtils.ts:61-113 | the reference selection is an ordered subsequence holding exactly the entries that pass |
| Engine.SelectIsFilter | src/lib/eventUtils.ts:61-113 | the reference selection is the plain `filter` by any test that agrees with the criteria on the list |
| Engine.ApplySelects | src/lib/eventUtils.ts:61-113 | the events of the result, with their year and month, are the reference selection of the input's events |
| Engine.FixedPoint | src/lib/eventUtils.ts:61-113 | the filter leaves a tree unchanged exactly when every node passes and no group is empty |
| Engine.Idempotent | src/lib/eventUtils.ts:61-113 | filtering the result again with the same criteria changes nothing |
| Engine.Identity | src/lib/eventUtils.ts:111-113 | with no criterion the filter returns its input exactly when the input has no empty group |
| Engine.Monotone | src/lib/eventUtils.ts:61-113 | adding a criterion, with the ones already set unchanged, keeps a subsequence of the events, so never more events |
| Engine.ApplyAgree | src/lib/eventUtils.ts:61-113 | two variants that pass the same nodes give the same tree |
| Engine.SameIndexSameResult | src/components/FilterEvents.tsx:4-65 | variants that agree on the month test, and on month indices when a date bound is set, give the same tree |
| Engine.DateTestByDay | src/lib/eventUtils.ts:91-106 | the millisecond comparisons equal a day-range test: start inclusive unless east of UTC, end inclusive unless west of UTC |
| Engine.InclusiveAtUtc | src/lib/eventUtils.ts:91-106 | at offset 0 the date range admits exactly the days from start to end, both included |
| EventUtils.ApplyEventFilters | src/lib/eventUtils.ts:50-114 | the library filter returns an order-preserving sub-tree without empty groups |
| EventUtils.Characterisation | src/lib/eventUtils.ts:61-113 | the events left are the input's events whose year, month, city, modality and day meet the criteria, in input order and with their repetitions |
| EventUtils.YearExact | src/lib/eventUtils.ts:62 | with a year selected by its decimal string, only that year remains |
| EventUtils.MonthExact | src/lib/eventUtils.ts:66-70 | with a month selected, every month left has the same lower-cased name |
| EventUtils.AnchorOfMonthName | src/lib/eventUtils.ts:92-97 | an event of day d in the month named by `MONTH_NAMES[m]` is anchored on that calendar day |
| EventUtils.BoundsInclusiveAtUtc | src/lib/eventUtils.ts:99-105 | at offset 0 an event on the start day and end day is kept |
| EventUtils.EndDayRejectedWestOfUtc | src/lib/eventUtils.ts:103-105 | west of UTC an event anchored on the end day itself is rejected |
| EventUtils.ApplyEventFiltersUtc | src/lib/eventUtils.ts:91-106 | the filter with the anchor built at UTC returns an order-preserving sub-tree without empty groups |
| EventUtils.UtcKeepsEndDay | src/lib/eventUtils.ts:103-105 | with the anchor at UTC, an event on the end day is kept |
| EventUtils.TypeTags | src/lib/eventUtils.ts:10-18 | the tags are exactly the lower-cased non-empty modalities of the events |
| EventUtils.GetUniqueEventTypes | src/lib/eventUtils.ts:7-21 | the modalities, lower-cased, each once, in order of first appearance, covering exactly the non-empty ones |
| EventUtils.GetUniqueYears | src/lib/eventUtils.ts:26-28 | the year strings, each once, in order of first appearance, covering exactly the input years |
| EventUtils.UniqueYearsAreDistinctYears | src/lib/eventUtils.ts:26-28 | two positions of the year list name two different years |
| EventUtils.FormatEventLocation | src/lib/eventUtils.ts:33-45 | "cidade, uf" when both are present; "" exactly for an online event without both; the no-location text exactly otherwise |
| FilterEventsComponent.ApplyEventFilters | src/components/FilterEvents.tsx:4-65 | the component's filter returns an order-preserving sub-tree without empty groups |
| FilterEventsComponent.MonthIgnored | src/components/FilterEvents.tsx:6-12 | a `month` criterion has no effect on the result |
| FilterEventsComponent.MojibakeKeyUnreachable | src/components/FilterEvents.tsx:17 | no lower-cased month name equals the mis-encoded March key |
| FilterEventsComponent.MarchReadsAsJanuary | src/components/FilterEvents.tsx:51 | "março" gets month index 0 here and 2 in the library |
| FilterEventsComponent.TablesAgreeElsewhere | src/components/FilterEvents.tsx:14-27 | every other month name gets the same index as in `MONTH_MAP` |
| FilterEventsComponent.MatchesLibrary | src/components/FilterEvents.tsx:4-65 | with no date bound, or no March month, the result equals the library filter's without `month` |
| FilterEventsComponent.MarchEventDropped | src/components/FilterEvents.tsx:47-58 | a March event is dropped by a start date of 1 February, which the library keeps it under |
| FilterEventsComponent.ApplyEventFiltersCorrected | src/components/FilterEvents.tsx:4-65 | with `MONTH_MAP` as its table the component equals the library filter without `month` on every tree |
| HomePage.TableIsMonthMapWithoutMarco | src/app/page.tsx:26-39 | the page's table is `MONTH_MAP` without the "marco" key |
| HomePage.FilterEvents | src/app/page.tsx:45-96 | the page's filter returns an order-preserving sub-tree without empty groups |
| HomePage.Characterisation | src/app/page.tsx:48-91 | the events left are the input's events whose year, city, modality and day meet the criteria, in input order and with their repetitions |
| HomePage.MarcoReadsAsJanuary | src/app/page.tsx:72-73 | "marco" gets month index 0 here and 2 in the library |
| HomePage.MatchesLibrary | src/app/page.tsx:45-96 | with no date bound, or no month named "marco", the result equals the library filter's without `month` |
| HomePage.InitialViewIsCurrentYear | src/app/page.tsx:103-109 | on load the events shown are, by membership, exactly the current year's, in input order |
| HomePage.InitialViewIsYearFilter | src/app/page.tsx:103-109 | on load the events shown are the current year's events of the flat list, with their repetitions |
| HomePage.AvailableYears | src/app/page.tsx:104-106 | the year strings, each once, in order of first appearance |
| DateUtils.NormalizeMonthName | src/lib/dateUtils.ts:6-11 | the normalised name is no longer than the name and holds no upper-case letter, no combining mark and no letter NFD would still decompose |
| DateUtils.NormalizeIdempotent | src/lib/dateUtils.ts:6-11 | normalising a normalised month name changes nothing |
| DateUtils.NormalizedHasNoCedilla | src/lib/dateUtils.ts:9-10 | a normalised name never contains "ç" |
| DateUtils.MonthNamesResolve | src/lib/dateUtils.ts:28-29 | each month name, in any case, normalises to a key that maps to its own index |
| DateUtils.IsEventPast | src/lib/dateUtils.ts:20-38 | false for no days or an unknown month; otherwise true exactly when the last day's calendar day is before today |
| DateUtils.PastExactlyBeforeToday | src/lib/dateUtils.ts:33-37 | for day d of a named month, the event is past exactly when that day precedes today |
| DateUtils.LastDayDecides | src/lib/dateUtils.ts:27 | only the last day marker is read |
| DateUtils.OffsetIrrelevant | src/lib/dateUtils.ts:33-37 | the local offset does not change the answer |
| DateUtils.PastStaysPast | src/lib/dateUtils.ts:33-37 | an event that is past stays past on every later day |
| DateUtils.FormatEventDate | src/lib/dateUtils.ts:43-47 | "" for no days and the day for one; for several, the first day, " - " and the last day, and when the first day has no space, splitting the label at its first space gives both back |
| DateUtils.FormatShortMonth | src/lib/dateUtils.ts:52-54 | when none of the first three characters is "ß", the label is three characters long, or as long as a shorter name |
| DateUtils.ShortMonthsOfMonthNames | src/lib/dateUtils.ts:52-54 | the month names give JAN, FEV, MAR, ABR, MAI, JUN, JUL, AGO, SET, OUT, NOV, DEZ |
| DateUtils.ShortMonthIgnoresCase | src/lib/dateUtils.ts:53 | the label does not depend on the case of the name |
| EventCard.GetBadgeColor | src/components/EventCard.tsx:15-26 | a modality of `EVENT_TYPES` gets its `BADGE_COLORS` entry, matched exactly; anything else gets the card's fallback |
| EventCard.BadgeColorIsCaseSensitive | src/components/EventCard.tsx:15-26 | "Presencial" gets the fallback, which differs from every modality's colour and from `BADGE_COLORS` default |
| EventCard.FormattedDate | src/components/EventCard.tsx:32-35 | undefined exactly for no days, otherwise the `formatEventDate` label |
| EventCard.Location | src/components/EventCard.tsx:37-42 | the card's location equals `formatEventLocation` |
| EventCard.ShortMonth | src/components/EventCard.tsx:44 | the card's month label equals `formatShortMonth` |
| EventCard.BlockedDomainsAreShared | src/components/EventCard.tsx:48-52 | the card's prefixes are `BLOCKED_IFRAME_DOMAINS` |
| EventCard.AnyPrefix | src/components/EventCard.tsx:53 | `some(startsWith)` holds exactly when some listed prefix starts the URL |
| EventCard.IframeAllowed | src/components/EventCard.tsx:47-56 | the preview is allowed exactly when the URL starts with no blocked prefix |
| EventCard.IframePrefixExamples | src/components/EventCard.tsx:53 | a page under a blocked prefix is blocked; the same site without "www." is not |
| EventCard.IsPast | src/components/EventCard.tsx:58-92 | an event without days is never past |
| EventCard.MarchNeverPast | src/components/EventCard.tsx:63-84 | a month normalising to "marco" is never past, since the card's table only has "março" |
| EventCard.IsPastAgreesElsewhere | src/components/EventCard.tsx:58-92 | for every other month the card agrees with `isEventPast` in the current year |
| EventCard.IsPastCorrected | src/components/EventCard.tsx:58-92 | the card with `MONTH_MAP` as its table is `isEventPast` in the current year |
| EventCard.MarchPastWhenCorrected | src/components/EventCard.tsx:63-91 | an old March event is past with the corrected table and not past as written |

## Left out

- React state, effects and rendering are not modelled. This includes the scroll handlers, the drawer and row filter components, and the "all" select sentinel. The card's `iframeAllowed` and `isPast` appear as the values their effect and memo settle on.
- The wall clock is a parameter: today's calendar day, the current year and the local offset are passed in. `getTodayISO` (src/lib/dateUtils.ts:59-61) only formats the clock and is left out.
- Daylight saving time and the host timezone database are left out: the offset is a fixed number of minutes. The day-level lemmas assume it is under one day.
- Only the date-only "YYYY-MM-DD" form of `new Date(string)` is modelled. Every other string, and years beyond 9999 in a bound, read as the Invalid Date. A day that does not exist in its month, such as "2023-02-30", is also the Invalid Date here, as in SpiderMonkey; V8 checks the day only against 01 to 31 and rolls it into the next month. A date input never produces such a value.
- TimeClip is left out: a date beyond ±8.64e15 ms stays a valid time value here.
- The `Number` and `parseInt` grammars are cut down to optional sign and decimal digits: no whitespace, decimals, exponents, hex or Infinity. So `Number("5.0")` is NaN here and 5 in JavaScript; day markers are plain digits.
- Case mapping and NFD cover ASCII and Latin-1 only, and strings are sequences of code points. `slice(0, 3)` on characters outside the Basic Multilingual Plane is not modelled.
- Month names that are `Object.prototype` keys, such as "constructor", read as unknown here. In JavaScript they give a non-number month, and so an Invalid Date.
- The unquoted key `marÃ§o` at src/components/FilterEvents.tsx:17 contains U+00A7, which is not an identifier character, so the text as it stands is not a valid object literal. The model reads the key as the string "marÃ§o"; what a compiler does with the text as written is not modelled.
- A missing `cidade` or `tipo` (optional chaining) is modelled as "". Every filter and label treats the two alike.
- The month colour of the home page parses month names with the engine's `Date` parser (src/app/page.tsx:173). That parser is engine-dependent, so the colour is left out.
- The unused fields `modelo`, `dataInicio`, `dataFim` and `localidade` of `Evento` are left out; `arquivado` is carried through unchanged.
- Data fetching, the layout, the footer, the empty-list view and the theme toggle hold no filter logic and are left out.
- EventCard.IsPast: its own contract covers only the empty list. MarchNeverPast and IsPastAgreesElsewhere state the rest.
- DateUtils.FormatShortMonth: its own contract gives only the length. ShortMonthsOfMonthNames and ShortMonthIgnoresCase state the content.
- DateUtils.NormalizeMonthName: its own contract states what the result is free of, not which letters it keeps. MonthNamesResolve states the result for every month name.

## Findings

| source | as written | input that shows it | evidently intended | confidence | as-written member | corrected member |
|---|---|---|---|---|---|---|
| src/lib/eventUtils.ts:93-105 | the anchor is local midnight, the bounds are UTC midnight, and the end test is a strict `>` | offset 180 minutes (Brazil); an event on 10 March 2025; endDate "2025-03-10" | the end day included, as the date range is meant to be inclusive | medium, not executed | EventUtils.EndDayRejectedWestOfUtc | EventUtils.ApplyEventFiltersUtc |
| src/components/FilterEvents.tsx:17 | the March key is the mis-encoded "marÃ§o". Read as that string, it leaves "março" to fall back to index 0 | an event of 10 "março" 2025; startDate "2025-02-01" | "março" maps to 2, and the event is kept | low: it assumes the key is read as the string "marÃ§o", not executed | FilterEventsComponent.MarchEventDropped | FilterEventsComponent.ApplyEventFiltersCorrected |
| src/components/EventCard.tsx:63-84 | the table has "março", but the name is looked up after NFD, as "marco" | month "março", data ["10"], today after 10 March of the current year | the event is shown as past | high, not executed | EventCard.MarchNeverPast | EventCard.IsPastCorrected |

=== FILE: calendar.dfy ===
/**
 * The slice of JavaScript's `Date` the filters use: the time value (in
 * milliseconds since 1970-01-01T00:00Z), the `new Date(year, month, day)`
 * constructor in local time, `new Date("YYYY-MM-DD")` (which the language
 * reads as UTC midnight) and the `<` / `>` comparisons of two dates.
 *
 * Local time is modelled by one fixed offset `tz`, in minutes, with the sign
 * of `Date.prototype.getTimezoneOffset`: UTC minus local time, so positive
 * west of Greenwich (180 in Brasília).
 */
module Calendar {
  import opened Numbers
  import opened Options

  const MsPerDay: int := 86_400_000
  const MsPerMinute: int := 60_000

  predicate IsLeapYear(y: int) {
    y % 4 == 0 && (y % 100 != 0 || y % 400 == 0)
  }

  /** Length of month `m` (0 = January) of year `y`. */
  function DaysInMonth(y: int, m: int): (n: int)
    requires 0 <= m < 12
    ensures 28 <= n <= 31
  {
    if m == 1 then (if IsLeapYear(y) then 29 else 28)
    else if m == 3 || m == 5 || m == 8 || m == 10 then 30
    else 31
  }

  /**
   * Day number, counted from 0000-03-01, of March 1 of year `y`: the
   * calendar repeats every 400 years (146097 days), and inside an era every
   * fourth year but every hundredth is one day longer.
   */
  function MarchFirst(y: int): int {
    var era := y / 400;
    var yoe := y % 400;
    era * 146097 + yoe * 365 + yoe / 4 - yoe / 100
  }

  /**
   * Day number (days since 1970-01-01) of the first day of month `m`
   * (0 = January) of the proleptic Gregorian year `y`: the year is counted
   * from March so that February ends it.
   */
  function FirstOfMonth(y: int, m: int): int
    requires 0 <= m < 12
  {
    var y' := if m < 2 then y - 1 else y;
    var mp := (m + 10) % 12;
    MarchFirst(y') + (153 * mp + 2) / 5 - 719468
  }

  /**
   * MakeDay of the ECMAScript standard: a month outside 0..11 moves the year,
   * and a day outside the month rolls over into the neighbouring months.
   */
  function MakeDay(y: int, m: int, d: int): int {
    FirstOfMonth(y + m / 12, m % 12) + d - 1
  }

  lemma Epoch()
    ensures MakeDay(1970, 0, 1) == 0
  {
  }

  lemma EraStep(y: int)
    ensures y % 400 < 399 ==> (y + 1) / 400 == y / 400 && (y + 1) % 400 == y % 400 + 1
    ensures y % 400 == 399 ==> (y + 1) / 400 == y / 400 + 1 && (y + 1) % 400 == 0
  {
  }

  lemma LeapWithinEra(y: int)
    ensures y % 4 == (y % 400) % 4 && y % 100 == (y % 400) % 100
  {
    var q := y / 400;
    assert y == 400 * q + y % 400;
  }

  lemma QuarterStep(r: int)
    requires 0 <= r < 399
    ensures (r + 1) / 4 - r / 4 == (if (r + 1) % 4 == 0 then 1 else 0)
    ensures (r + 1) / 100 - r / 100 == (if (r + 1) % 100 == 0 then 1 else 0)
  {
  }

  /** The year from March 1 of `y` has 366 days exactly when the next February has 29. */
  lemma MarchYearLength(y: int)
    ensures MarchFirst(y + 1) - MarchFirst(y) == (if IsLeapYear(y + 1) then 366 else 365)
  {
    EraStep(y);
    LeapWithinEra(y + 1);
    var r := y % 400;
    if r < 399 {
      QuarterStep(r);
    }
  }

  /** March 1 follows February 28 or 29. */
  lemma FebruaryLength(y: int)
    ensures FirstOfMonth(y, 2) - FirstOfMonth(y, 1) == DaysInMonth(y, 1)
  {
    MarchYearLength(y - 1);
  }

  /** Within one year, consecutive months are `DaysInMonth` apart. */
  lemma FirstOfMonthStep(y: int, m: int)
    requires 0 <= m < 11
    ensures FirstOfMonth(y, m + 1) == FirstOfMonth(y, m) + DaysInMonth(y, m)
  {
    if m == 0 {
    } else if m == 1 {
      FebruaryLength(y);
    } else if m == 2 {
    } else if m == 3 {
    } else if m == 4 {
    } else if m == 5 {
    } else if m == 6 {
    } else if m == 7 {
    } else if m == 8 {
    } else if m == 9 {
    } else {
    }
  }

  /** Consecutive months are `DaysInMonth` apart; December is followed by January of the next year. */
  lemma MonthLength(y: int, m: int)
    requires 0 <= m < 12
    ensures MakeDay(y, m + 1, 1) == MakeDay(y, m, 1) + DaysInMonth(y, m)
  {
    assert m / 12 == 0 && m % 12 == m;
    if m < 11 {
      assert (m + 1) / 12 == 0 && (m + 1) % 12 == m + 1;
      FirstOfMonthStep(y, m);
    } else {
      assert (m + 1) / 12 == 1 && (m + 1) % 12 == 0;
      assert FirstOfMonth(y + 1, 0) == MarchFirst(y) + 306 - 719468;
      assert FirstOfMonth(y, 11) == MarchFirst(y) + 275 - 719468;
    }
  }

  /**
   * Day overflow: day `DaysInMonth + d` of month `m` is day `d` of the next
   * month, so day 31 of a 30-day month is the 1st of the next, and day 0 of a
   * month is the last day of the previous one.
   */
  lemma RollOver(y: int, m: int, d: int)
    requires 0 <= m < 12
    ensures MakeDay(y, m, DaysInMonth(y, m) + d) == MakeDay(y, m + 1, d)
  {
    MonthLength(y, m);
  }

  /** A `Date` object: a time value, or the Invalid Date (time value NaN). */
  datatype Date = Time(ms: int) | InvalidDate

  /**
   * The year the `Date` constructor uses: 0..99 stand for 1900..1999. The
   * result is never itself a two-digit year, so applying the rule again
   * changes nothing; a two-digit year keeps its last two digits; every other
   * year is taken as written.
   */
  function ConstructorYear(y: int): (r: int)
    ensures !(0 <= r <= 99)
    ensures 0 <= y <= 99 ==> 1900 <= r <= 1999 && r % 100 == y
    ensures r != y ==> 0 <= y <= 99
  {
    if 0 <= y <= 99 then 1900 + y else y
  }

  /** The calendar day `new Date(y, m, d)` denotes, absent when a component is NaN. */
  function LocalDay(y: Num, m: Num, d: Num): Option<int> {
    if y.NaN? || m.NaN? || d.NaN? then None
    else Some(MakeDay(ConstructorYear(y.value), m.value, d.value))
  }

  /** `new Date(y, m, d)`: local midnight of that day, or Invalid Date when a component is NaN. */
  function NewDate(y: Num, m: Num, d: Num, tz: int): (r: Date)
    ensures r.InvalidDate? <==> (y.NaN? || m.NaN? || d.NaN?)
    ensures r.Time? ==> (r.ms - tz * MsPerMinute) % MsPerDay == 0
  {
    match LocalDay(y, m, d)
    case None => InvalidDate
    case Some(day) =>
      WholeDays(day);
      Time(day * MsPerDay + tz * MsPerMinute)
  }

  /**
   * The day number of a date-only string "YYYY-MM-DD", absent when the string
   * has another shape or names a month or day that does not exist.
   */
  function ParseDay(s: string): (r: Option<int>)
    ensures r.Some? ==> |s| == 10
  {
    if |s| == 10 && s[4] == '-' && s[7] == '-' &&
       AllDigits(s[..4]) && AllDigits(s[5..7]) && AllDigits(s[8..])
    then
      var y := DigitsValue(s[..4]);
      var m := DigitsValue(s[5..7]);
      var d := DigitsValue(s[8..]);
      if 1 <= m <= 12 && 1 <= d <= DaysInMonth(y, m - 1) then Some(MakeDay(y, m - 1, d)) else None
    else None
  }

  /** `new Date(s)` on a date-only string: UTC midnight of that day. */
  function ParseDate(s: string): (r: Date)
    ensures r.Time? <==> ParseDay(s).Some?
    ensures r.Time? ==> r.ms % MsPerDay == 0
  {
    match ParseDay(s)
    case None => InvalidDate
    case Some(day) =>
      WholeDays(day);
      Time(day * MsPerDay)
  }

  /** A whole number of days is a whole number of days: midnight stays midnight. */
  lemma WholeDays(day: int)
    ensures (day * MsPerDay) % MsPerDay == 0
  {
  }

  /** `a < b` on two `Date` objects: false whenever either is invalid. */
  predicate Before(a: Date, b: Date) {
    a.Time? && b.Time? && a.ms < b.ms
  }

  /** The digits of `n`, left-padded with zeros to `width` characters. */
  function Pad(n: nat, width: nat): (s: string)
    ensures |s| == width && AllDigits(s)
    ensures n < Pow10(width) ==> DigitsValue(s) == n
  {
    if width == 0 then ""
    else
      var s := Pad(n / 10, width - 1) + [DigitChar(n % 10)];
      assert s[..|s| - 1] == Pad(n / 10, width - 1);
      s
  }

  /** `k` zeros. */
  function Zeros(k: nat): (s: string)
    ensures |s| == k && AllDigits(s)
  {
    seq(k, i => '0')
  }

  /** `10 ** k`: the value of "1" followed by `k` zeros, the least number `Pad` needs `k + 1` digits for. */
  function Pow10(k: nat): (p: nat)
    ensures p >= 1
    ensures AllDigits("1" + Zeros(k)) && DigitsValue("1" + Zeros(k)) == p
  {
    if k == 0 then
      assert "1" + Zeros(0) == "1";
      1
    else
      var p := 10 * Pow10(k - 1);
      assert ("1" + Zeros(k))[..k] == "1" + Zeros(k - 1);
      p
  }

  /** The value an `<input type="date">` produces for a calendar day: "YYYY-MM-DD". */
  function DateInputValue(y: nat, m: nat, d: nat): (s: string)
    requires y <= 9999 && m < 12 && 1 <= d <= 31
    ensures |s| == 10
  {
    Pad(y, 4) + "-" + Pad(m + 1, 2) + "-" + Pad(d, 2)
  }

  /** Reading back a date-input value gives the day it was written for. */
  lemma ParseDateInputValue(y: nat, m: nat, d: nat)
    requires y <= 9999 && m < 12 && 1 <= d <= DaysInMonth(y, m)
    ensures ParseDay(DateInputValue(y, m, d)) == Some(MakeDay(y, m, d))
  {
    var s := DateInputValue(y, m, d);
    assert Pow10(4) == 10000 && Pow10(2) == 100;
    assert s[..4] == Pad(y, 4);
    assert s[5..7] == Pad(m + 1, 2);
    assert s[8..] == Pad(d, 2);
  }
}

=== FILE: constants.dfy ===
/** The application-wide constants (src/lib/constants.ts) and what they promise. */
module Constants {

  const MONTH_NAMES: seq<string> := [
    "janeiro", "fevereiro", "março", "abril", "maio", "junho",
    "julho", "agosto", "setembro", "outubro", "novembro", "dezembro"
  ]

  /** Month name to zero-based month index; "marco" is the accent-stripped spelling of "março". */
  const MONTH_MAP: map<string, int> := map[
    "janeiro" := 0, "fevereiro" := 1, "março" := 2, "marco" := 2,
    "abril" := 3, "maio" := 4, "junho" := 5, "julho" := 6,
    "agosto" := 7, "setembro" := 8, "outubro" := 9, "novembro" := 10,
    "dezembro" := 11
  ]

  const PRESENCIAL: string := "presencial"
  const HIBRIDO: string := "híbrido"
  const ONLINE: string := "online"
  const EVENT_TYPES: seq<string> := [PRESENCIAL, HIBRIDO, ONLINE]

  const BADGE_COLORS: map<string, string> := map[
    "presencial" := "bg-sky-600/90",
    "híbrido" := "bg-purple-900/80",
    "online" := "bg-orange-600/90",
    "default" := "bg-gray-600/20"
  ]

  const BLOCKED_IFRAME_DOMAINS: seq<string> := [
    "https://www.meetup.com",
    "https://www.sympla.com.br",
    "https://www.instagram.com"
  ]

  /** Twelve names, and each name maps back to its own position. */
  lemma MonthNamesIndexed()
    ensures |MONTH_NAMES| == 12
    ensures forall i :: 0 <= i < 12 ==> MONTH_NAMES[i] in MONTH_MAP && MONTH_MAP[MONTH_NAMES[i]] == i
  {
  }

  /** Every value is a month index, and every month index is reached. */
  lemma MonthMapOnto()
    ensures forall k :: k in MONTH_MAP ==> 0 <= MONTH_MAP[k] < 12
    ensures forall i :: 0 <= i < 12 ==> i in MONTH_MAP.Values
  {
    MonthNamesIndexed();
    forall i | 0 <= i < 12
      ensures i in MONTH_MAP.Values
    {
      assert MONTH_MAP[MONTH_NAMES[i]] == i;
    }
  }

  /** Both spellings of March map to 2, and they are the only two keys that share a value. */
  lemma MarchSpellings()
    ensures MONTH_MAP["março"] == 2 && MONTH_MAP["marco"] == 2
    ensures forall k1, k2 :: k1 in MONTH_MAP && k2 in MONTH_MAP && k1 != k2 && MONTH_MAP[k1] == MONTH_MAP[k2] ==>
      (k1 == "março" && k2 == "marco") || (k1 == "marco" && k2 == "março")
  {
  }

  /** The three modalities are distinct, and each has a badge colour other than the default one. */
  lemma EventTypesHaveColors()
    ensures forall i, j :: 0 <= i < j < |EVENT_TYPES| ==> EVENT_TYPES[i] != EVENT_TYPES[j]
    ensures forall t :: t in EVENT_TYPES ==> t in BADGE_COLORS && BADGE_COLORS[t] != BADGE_COLORS["default"]
  {
  }
}

=== FILE: date_utils.dfy ===
/**
 * The date helpers of src/lib/dateUtils.ts. The wall clock is a parameter:
 * `today` is the local calendar day (days since 1970-01-01) and `tz` the
 * local offset in minutes, positive west of UTC.
 */
module DateUtils {
  import opened Options
  import opened Strings
  import opened Numbers
  import opened Calendar
  import opened Constants

  /**
   * `normalizeMonthName`: lower-case, then NFD, then drop the combining marks.
   * What is left has no upper-case letter, no combining mark and no letter
   * that NFD would still decompose.
   */
  function NormalizeMonthName(month: string): (r: string)
    ensures |r| <= |month|
    ensures forall i :: 0 <= i < |r| ==>
      !IsUpperLetter(r[i]) && !IsCombiningMark(r[i]) && BaseLetter(r[i]) == r[i]
  {
    StripAccentsDecomposed(Lower(month));
    StripAccents(Lower(month))
  }

  /** A normalised name is lower-case and free of accents, so normalising it again changes nothing. */
  lemma NormalizeIdempotent(month: string)
    ensures NormalizeMonthName(NormalizeMonthName(month)) == NormalizeMonthName(month)
  {
    var n := NormalizeMonthName(month);
    StripAccentsDecomposed(Lower(month));
    assert Lower(n) == n;
    StripAccentsIdempotent(n);
  }

  /** A normalised name never contains "ç": NFD splits it into "c" and a cedilla. */
  lemma NormalizedHasNoCedilla(month: string, i: int)
    requires 0 <= i < |NormalizeMonthName(month)|
    ensures NormalizeMonthName(month)[i] != 'ç'
  {
    StripAccentsDecomposed(Lower(month));
  }

  /** Each month name, in any case, normalises to a key that `MONTH_MAP` sends to its index. */
  lemma MonthNamesResolve(month: string, m: nat)
    requires m < 12 && Lower(month) == MONTH_NAMES[m]
    ensures NormalizeMonthName(month) in MONTH_MAP && MONTH_MAP[NormalizeMonthName(month)] == m
  {
    MonthNamesIndexed();
    if m == 2 {
      var t := "março";
      assert t == [t[0], t[1], t[2]] + [t[3]] + [t[4]];
      StripAccentsAppend([t[0], t[1], t[2]] + [t[3]], [t[4]]);
      StripAccentsAppend([t[0], t[1], t[2]], [t[3]]);
      StripAccentsOfPlain([t[0], t[1], t[2]]);
      StripAccentsOfPlain([t[4]]);
      assert StripAccents(t) == "marco";
    } else {
      StripAccentsOfPlain(MONTH_NAMES[m]);
    }
  }

  /** A string of ASCII lower-case letters has no accent to strip. */
  lemma StripAccentsOfPlain(s: string)
    requires forall i :: 0 <= i < |s| ==> 'a' <= s[i] <= 'z'
    ensures StripAccents(s) == s
  {
    StripAccentsIdempotent(s);
  }

  lemma {:induction false} StripAccentsAppend(a: string, b: string)
    ensures StripAccents(a + b) == StripAccents(a) + StripAccents(b)
  {
    if |a| > 0 {
      assert (a + b)[1..] == a[1..] + b;
      StripAccentsAppend(a[1..], b);
    } else {
      assert a + b == b;
    }
  }

  /** The last element of a non-empty list. */
  function Last(xs: seq<string>): string
    requires |xs| > 0
  {
    xs[|xs| - 1]
  }

  /** Local midnight of the calendar day `today`: `new Date()` after `setHours(0, 0, 0, 0)`. */
  function Midnight(today: int, tz: int): Date {
    Time(today * MsPerDay + tz * MsPerMinute)
  }

  /**
   * `isEventPast(eventDate, month, year)`: local midnight of the event's last
   * day is before today's local midnight. An empty list, a month name the
   * table does not know, or a last day that does not parse is never past.
   */
  function IsEventPast(eventDate: seq<string>, month: string, year: int, today: int, tz: int): (r: bool)
    ensures |eventDate| == 0 ==> !r
    ensures NormalizeMonthName(month) !in MONTH_MAP ==> !r
    ensures r <==>
      && |eventDate| > 0
      && NormalizeMonthName(month) in MONTH_MAP
      && ParseInt(Last(eventDate)).Int?
      && MakeDay(ConstructorYear(year), MONTH_MAP[NormalizeMonthName(month)], ParseInt(Last(eventDate)).value) < today
  {
    if |eventDate| == 0 then false
    else
      var lastDay := Last(eventDate);
      var normalizedMonth := NormalizeMonthName(month);
      if normalizedMonth !in MONTH_MAP then false
      else
        var eventDateObj := NewDate(Int(year), Int(MONTH_MAP[normalizedMonth]), ParseInt(lastDay), tz);
        Before(eventDateObj, Midnight(today, tz))
  }

  /**
   * For day `d` of the month named `MONTH_NAMES[m]` (in any case) of year
   * `year`, the event is past exactly when that day comes before today.
   */
  lemma PastExactlyBeforeToday(eventDate: seq<string>, month: string, year: nat, m: nat, d: nat, today: int, tz: int)
    requires 100 <= year && m < 12 && Lower(month) == MONTH_NAMES[m]
    requires |eventDate| > 0 && Last(eventDate) == NatToString(d)
    ensures IsEventPast(eventDate, month, year, today, tz) <==> MakeDay(year, m, d) < today
  {
    MonthNamesResolve(month, m);
    ParseIntOfDigits(NatToString(d));
  }

  /** Only the last day of the list is read. */
  lemma LastDayDecides(eventDate: seq<string>, month: string, year: int, today: int, tz: int)
    requires |eventDate| > 0
    ensures IsEventPast(eventDate, month, year, today, tz) == IsEventPast([Last(eventDate)], month, year, today, tz)
  {
  }

  /** Both sides are local midnights, so the offset cancels out. */
  lemma OffsetIrrelevant(eventDate: seq<string>, month: string, year: int, today: int, tz1: int, tz2: int)
    ensures IsEventPast(eventDate, month, year, today, tz1) == IsEventPast(eventDate, month, year, today, tz2)
  {
  }

  /** An event that is past stays past on every later day. */
  lemma PastStaysPast(eventDate: seq<string>, month: string, year: int, today: int, later: int, tz: int)
    requires today <= later
    requires IsEventPast(eventDate, month, year, today, tz)
    ensures IsEventPast(eventDate, month, year, later, tz)
  {
  }

  predicate EndsWith(s: string, suffix: string) {
    |suffix| <= |s| && s[|s| - |suffix|..] == suffix
  }

  /** The index of the first space of `s`, if any. */
  function SpaceIndex(s: string): (k: Option<nat>)
    ensures k.Some? ==> k.value < |s| && s[k.value] == ' ' && ' ' !in s[..k.value]
    ensures k.None? ==> ' ' !in s
  {
    if |s| == 0 then None
    else if s[0] == ' ' then Some(0)
    else match SpaceIndex(s[1..])
      case None => None
      case Some(j) =>
        assert s[..j + 1] == [s[0]] + s[1..][..j];
        Some(j + 1)
  }

  /** Splits a "first - last" label at its first space. */
  function RangeEnds(s: string): Option<(string, string)> {
    match SpaceIndex(s)
    case None => None
    case Some(k) =>
      if k + 3 <= |s| && s[k..k + 3] == " - " then Some((s[..k], s[k + 3..])) else None
  }

  lemma {:induction false} FirstSpace(r: string, first: string)
    requires |first| < |r| && r[..|first|] == first && r[|first|] == ' ' && ' ' !in first
    ensures SpaceIndex(r) == Some(|first|)
  {
    if |first| > 0 {
      assert first[0] in first;
      assert r[1..][..|first| - 1] == first[1..];
      FirstSpace(r[1..], first[1..]);
    }
  }

  /**
   * `formatEventDate`: "" for no days and the day itself for one. For several
   * days the label is the first day, " - " and the last day; when the first
   * day has no space, splitting the label at its first space gives both back.
   */
  function FormatEventDate(dates: seq<string>): (r: string)
    ensures |dates| == 0 ==> r == ""
    ensures |dates| == 1 ==> r == dates[0]
    ensures |dates| > 1 ==>
      && StartsWith(r, dates[0] + " - ")
      && EndsWith(r, Last(dates))
      && |r| == |dates[0]| + 3 + |Last(dates)|
    ensures |dates| > 1 && ' ' !in dates[0] ==> RangeEnds(r) == Some((dates[0], Last(dates)))
  {
    if |dates| == 0 then ""
    else if |dates| == 1 then dates[0]
    else
      var r := dates[0] + " - " + Last(dates);
      var k := |dates[0]|;
      assert r[..k + 3] == dates[0] + " - ";
      assert r[k + 3..] == Last(dates);
      if ' ' in dates[0] then r
      else
        assert r[..k] == dates[0];
        FirstSpace(r, dates[0]);
        r
  }

  /** `formatShortMonth`: the first three characters, upper-cased. */
  function FormatShortMonth(month: string): (r: string)
    ensures (forall i :: 0 <= i < |month| && i < 3 ==> month[i] != '\U{DF}') ==>
      |r| == (if |month| < 3 then |month| else 3)
  {
    Upper(month[..if |month| < 3 then |month| else 3])
  }

  const SHORT_MONTHS: seq<string> := ["JAN", "FEV", "MAR", "ABR", "MAI", "JUN", "JUL", "AGO", "SET", "OUT", "NOV", "DEZ"]

  /** The labels of the twelve month names. */
  lemma ShortMonthsOfMonthNames(m: nat)
    requires m < 12
    ensures FormatShortMonth(MONTH_NAMES[m]) == SHORT_MONTHS[m]
  {
    var p := MONTH_NAMES[m][..3];
    assert p == [p[0], p[1], p[2]];
    UpperOfAscii(p);
  }

  /** On ASCII lower-case letters `toUpperCase` shifts each letter. */
  lemma {:induction false} UpperOfAscii(s: string)
    requires forall i :: 0 <= i < |s| ==> 'a' <= s[i] <= 'z'
    ensures |Upper(s)| == |s|
    ensures forall i :: 0 <= i < |s| ==> Upper(s)[i] == (s[i] as int - 32) as char
  {
    if |s| > 0 {
      UpperOfAscii(s[1..]);
    }
  }

  /** The label ignores the case of the name it is built from. */
  lemma ShortMonthIgnoresCase(month: string)
    ensures FormatShortMonth(Lower(month)) == FormatShortMonth(month)
  {
    var k := if |month| < 3 then |month| else 3;
    assert Lower(month)[..k] == Lower(month[..k]);
    UpperOfLower(month[..k]);
  }

  lemma {:induction false} UpperOfLower(s: string)
    ensures Upper(Lower(s)) == Upper(s)
  {
    if |s| > 0 {
      assert Lower(s)[1..] == Lower(s[1..]);
      UpperOfLower(s[1..]);
    }
  }
}

=== FILE: engine.dfy ===
/**
 * The event filter shared by the three copies in the source: a year filter,
 * an optional month filter, and per-event location, modality and date-range
 * tests, after which months without events and then years without months
 * are dropped.
 *
 * The copies differ only in whether the month filter exists, in the table
 * that turns a month name into a month index for the date range, and in the
 * operator (`|| 0` or `?? 0`) that supplies index 0 for a name the table
 * lacks. A `Variant` records those three choices.
 */
module Engine {
  import opened Options
  import opened Strings
  import opened Numbers
  import opened Calendar
  import opened Sequences
  import opened Types

  /**
   * The filter criteria. Each is optional in the source; an absent key and
   * the empty string are both falsy there, so "" stands for "no constraint".
   */
  datatype Filters = Filters(year: string, month: string, location: string, modality: string, startDate: string, endDate: string)

  const NoFilters: Filters := Filters("", "", "", "", "", "")

  /** `table[key] || 0` or `table[key] ?? 0`. */
  datatype Fallback = OrZero | NullishZero

  datatype Variant = Variant(monthFilter: bool, monthTable: map<string, int>, fallback: Fallback)

  /** The month index used for the date range: the table entry of the lower-cased name, else 0. */
  function MonthIndex(v: Variant, mes: string): int {
    var key := Lower(mes);
    if key !in v.monthTable then 0
    else match v.fallback
      case OrZero => if v.monthTable[key] == 0 then 0 else v.monthTable[key]
      case NullishZero => v.monthTable[key]
  }

  /** On a table of numbers, `|| 0` and `?? 0` give the same index. */
  lemma FallbacksAgree(v: Variant, mes: string)
    ensures MonthIndex(v.(fallback := OrZero), mes) == MonthIndex(v.(fallback := NullishZero), mes)
    ensures MonthIndex(v, mes) == (if Lower(mes) in v.monthTable then v.monthTable[Lower(mes)] else 0)
  {
  }

  /** `Number(ev.data[0])`; an event without days reads `undefined`, which is NaN. */
  function FirstDay(ev: Event): Num {
    if |ev.data| == 0 then NaN else NumberOf(ev.data[0])
  }

  /** `new Date(ano, monthIndex, Number(data[0]))`: the local midnight the date range compares. */
  function Anchor(v: Variant, ano: int, mes: string, ev: Event, tz: int): Date {
    NewDate(Int(ano), Int(MonthIndex(v, mes)), FirstDay(ev), tz)
  }

  /** The calendar day of the anchor, absent when the first day is not a number. */
  function AnchorDay(v: Variant, ano: int, mes: string, ev: Event): (r: Option<int>)
    ensures r.None? <==> FirstDay(ev).NaN?
  {
    LocalDay(Int(ano), Int(MonthIndex(v, mes)), FirstDay(ev))
  }

  predicate YearOk(f: Filters, ano: int) {
    f.year == "" || IntToString(ano) == f.year
  }

  predicate MonthOk(v: Variant, f: Filters, mes: string) {
    !v.monthFilter || f.month == "" || Lower(mes) == Lower(f.month)
  }

  predicate LocationOk(f: Filters, ev: Event) {
    f.location == "" || Includes(Lower(ev.cidade), Lower(f.location))
  }

  predicate ModalityOk(f: Filters, ev: Event) {
    f.modality == "" || Lower(ev.tipo) == Lower(f.modality)
  }

  /** The date test: strict `<` against the start and `>` against the end, each only when set. */
  predicate DateOk(f: Filters, anchor: Date) {
    (f.startDate == "" && f.endDate == "") ||
    (!(f.startDate != "" && Before(anchor, ParseDate(f.startDate))) &&
     !(f.endDate != "" && Before(ParseDate(f.endDate), anchor)))
  }

  predicate KeepEvent(v: Variant, f: Filters, tz: int, ano: int, mes: string, ev: Event) {
    LocationOk(f, ev) && ModalityOk(f, ev) && DateOk(f, Anchor(v, ano, mes, ev, tz))
  }

  /** Every node of the tree passes its test, and no group is empty. */
  ghost predicate Settled(v: Variant, f: Filters, tz: int, ys: seq<Year>) {
    forall y :: y in ys ==>
      YearOk(f, y.ano) && |y.meses| > 0 &&
      forall m :: m in y.meses ==>
        MonthOk(v, f, m.mes) && |m.eventos| > 0 &&
        forall e :: e in m.eventos ==> KeepEvent(v, f, tz, y.ano, m.mes, e)
  }

  function FilterEvents(v: Variant, f: Filters, tz: int, ano: int, mes: string, evs: seq<Event>): (r: seq<Event>)
    ensures Subseq(r, evs)
    ensures forall e :: e in r ==> KeepEvent(v, f, tz, ano, mes, e)
  {
    if |evs| == 0 then []
    else
      var rest := FilterEvents(v, f, tz, ano, mes, evs[1..]);
      if KeepEvent(v, f, tz, ano, mes, evs[0]) then [evs[0]] + rest else rest
  }

  function PruneMonths(v: Variant, f: Filters, tz: int, ano: int, ms: seq<Month>): (r: seq<Month>)
    ensures MonthsWithin(r, ms)
    ensures forall m :: m in r ==>
      MonthOk(v, f, m.mes) && |m.eventos| > 0 &&
      forall e :: e in m.eventos ==> KeepEvent(v, f, tz, ano, m.mes, e)
  {
    if |ms| == 0 then []
    else
      var rest := PruneMonths(v, f, tz, ano, ms[1..]);
      if !MonthOk(v, f, ms[0].mes) then rest
      else
        var evs := FilterEvents(v, f, tz, ano, ms[0].mes, ms[0].eventos);
        if |evs| == 0 then rest else [ms[0].(eventos := evs)] + rest
  }

  function PruneYears(v: Variant, f: Filters, tz: int, ys: seq<Year>): (r: seq<Year>)
    ensures YearsWithin(r, ys)
    ensures Settled(v, f, tz, r)
  {
    if |ys| == 0 then []
    else
      var rest := PruneYears(v, f, tz, ys[1..]);
      if !YearOk(f, ys[0].ano) then rest
      else
        var ms := PruneMonths(v, f, tz, ys[0].ano, ys[0].meses);
        if |ms| == 0 then rest else [ys[0].(meses := ms)] + rest
  }

  /**
   * The filter: an order-preserving sub-tree of the input with every other
   * field copied, in which every node passes and no group is empty.
   */
  function Apply(v: Variant, events: seq<Year>, f: Filters, tz: int): (r: seq<Year>)
    ensures YearsWithin(r, events)
    ensures Settled(v, f, tz, r)
    ensures NoEmptyGroups(r)
  {
    PruneYears(v, f, tz, events)
  }

  // ---------------------------------------------------------------------
  // The filter seen on the flat list of events

  /** An event passes, together with its year and month. */
  predicate Admits(v: Variant, f: Filters, tz: int, e: Entry) {
    YearOk(f, e.ano) && MonthOk(v, f, e.mes) && KeepEvent(v, f, tz, e.ano, e.mes, e.ev)
  }

  /** The reference definition: keep the entries that pass, in order. */
  function Select(v: Variant, f: Filters, tz: int, es: seq<Entry>): (r: seq<Entry>)
    ensures |r| <= |es|
  {
    if |es| == 0 then []
    else (if Admits(v, f, tz, es[0]) then [es[0]] else []) + Select(v, f, tz, es[1..])
  }

  /** `Select` keeps, in order, exactly the entries that pass. */
  lemma {:induction false} SelectMembers(v: Variant, f: Filters, tz: int, es: seq<Entry>)
    ensures Subseq(Select(v, f, tz, es), es)
    ensures forall e :: e in Select(v, f, tz, es) <==> e in es && Admits(v, f, tz, e)
    decreases |es|
  {
    if |es| != 0 {
      SelectMembers(v, f, tz, es[1..]);
      var rest := Select(v, f, tz, es[1..]);
      if Admits(v, f, tz, es[0]) {
        assert Select(v, f, tz, es) == [es[0]] + rest;
        assert ([es[0]] + rest)[1..] == rest;
      } else {
        assert Select(v, f, tz, es) == rest;
        SubseqDropHead(rest, es[1..], es[0]);
        assert [es[0]] + es[1..] == es;
      }
      assert forall e :: e in es <==> e == es[0] || e in es[1..];
    }
  }

  lemma {:induction false} SelectAppend(v: Variant, f: Filters, tz: int, a: seq<Entry>, b: seq<Entry>)
    ensures Select(v, f, tz, a + b) == Select(v, f, tz, a) + Select(v, f, tz, b)
    decreases |a|
  {
    if |a| != 0 {
      assert (a + b)[1..] == a[1..] + b;
      SelectAppend(v, f, tz, a[1..], b);
    } else {
      assert a + b == b;
    }
  }

  lemma {:induction false} SelectNone(v: Variant, f: Filters, tz: int, es: seq<Entry>)
    requires forall e :: e in es ==> !Admits(v, f, tz, e)
    ensures Select(v, f, tz, es) == []
    decreases |es|
  {
    if |es| != 0 {
      SelectNone(v, f, tz, es[1..]);
    }
  }

  /** `Select` is the plain `filter` by any test that agrees with `Admits` on the list. */
  lemma {:induction false} SelectIsFilter(v: Variant, f: Filters, tz: int, p: Entry -> bool, es: seq<Entry>)
    requires forall e :: e in es ==> p(e) == Admits(v, f, tz, e)
    ensures Select(v, f, tz, es) == Filter(p, es)
    decreases |es|
  {
    if |es| != 0 {
      assert es[0] in es;
      assert forall e :: e in es[1..] ==> e in es;
      SelectIsFilter(v, f, tz, p, es[1..]);
    }
  }

  lemma {:induction false} EntriesOfFilterEvents(v: Variant, f: Filters, tz: int, ano: int, aa: bool, mes: string, ma: bool, evs: seq<Event>)
    requires YearOk(f, ano) && MonthOk(v, f, mes)
    ensures EventEntries(ano, aa, mes, ma, FilterEvents(v, f, tz, ano, mes, evs)) == Select(v, f, tz, EventEntries(ano, aa, mes, ma, evs))
    decreases |evs|
  {
    if |evs| != 0 {
      EntriesOfFilterEvents(v, f, tz, ano, aa, mes, ma, evs[1..]);
      var rest := FilterEvents(v, f, tz, ano, mes, evs[1..]);
      assert ([evs[0]] + rest)[1..] == rest;
    }
  }

  lemma {:induction false} EntriesOfPruneMonths(v: Variant, f: Filters, tz: int, ano: int, aa: bool, ms: seq<Month>)
    requires YearOk(f, ano)
    ensures MonthEntries(ano, aa, PruneMonths(v, f, tz, ano, ms)) == Select(v, f, tz, MonthEntries(ano, aa, ms))
    decreases |ms|
  {
    if |ms| != 0 {
      var m := ms[0];
      var own := EventEntries(ano, aa, m.mes, m.arquivado, m.eventos);
      SelectAppend(v, f, tz, own, MonthEntries(ano, aa, ms[1..]));
      EntriesOfPruneMonths(v, f, tz, ano, aa, ms[1..]);
      var rest := PruneMonths(v, f, tz, ano, ms[1..]);
      if !MonthOk(v, f, m.mes) {
        SelectNone(v, f, tz, own);
      } else {
        EntriesOfFilterEvents(v, f, tz, ano, aa, m.mes, m.arquivado, m.eventos);
        var evs := FilterEvents(v, f, tz, ano, m.mes, m.eventos);
        if |evs| != 0 {
          assert ([m.(eventos := evs)] + rest)[1..] == rest;
        }
      }
    }
  }

  lemma {:induction false} EntriesOfPruneYears(v: Variant, f: Filters, tz: int, ys: seq<Year>)
    ensures Entries(PruneYears(v, f, tz, ys)) == Select(v, f, tz, Entries(ys))
    decreases |ys|
  {
    if |ys| != 0 {
      var y := ys[0];
      var own := MonthEntries(y.ano, y.arquivado, y.meses);
      SelectAppend(v, f, tz, own, Entries(ys[1..]));
      EntriesOfPruneYears(v, f, tz, ys[1..]);
      var rest := PruneYears(v, f, tz, ys[1..]);
      if !YearOk(f, y.ano) {
        SelectNone(v, f, tz, own);
      } else {
        EntriesOfPruneMonths(v, f, tz, y.ano, y.arquivado, y.meses);
        var ms := PruneMonths(v, f, tz, y.ano, y.meses);
        if |ms| != 0 {
          assert ([y.(meses := ms)] + rest)[1..] == rest;
        }
      }
    }
  }

  /**
   * The events of the result, read in order with their year and month, are
   * exactly the events of the input that pass all criteria.
   */
  lemma ApplySelects(v: Variant, events: seq<Year>, f: Filters, tz: int)
    ensures Entries(Apply(v, events, f, tz)) == Select(v, f, tz, Entries(events))
  {
    EntriesOfPruneYears(v, f, tz, events);
  }

  // ---------------------------------------------------------------------
  // Fixed points and idempotence

  lemma {:induction false} FilterEventsKeepsAll(v: Variant, f: Filters, tz: int, ano: int, mes: string, evs: seq<Event>)
    requires forall e :: e in evs ==> KeepEvent(v, f, tz, ano, mes, e)
    ensures FilterEvents(v, f, tz, ano, mes, evs) == evs
    decreases |evs|
  {
    if |evs| != 0 {
      FilterEventsKeepsAll(v, f, tz, ano, mes, evs[1..]);
      assert [evs[0]] + evs[1..] == evs;
    }
  }

  lemma {:induction false} PruneMonthsKeepsAll(v: Variant, f: Filters, tz: int, ano: int, ms: seq<Month>)
    requires forall m :: m in ms ==>
      MonthOk(v, f, m.mes) && |m.eventos| > 0 &&
      forall e :: e in m.eventos ==> KeepEvent(v, f, tz, ano, m.mes, e)
    ensures PruneMonths(v, f, tz, ano, ms) == ms
    decreases |ms|
  {
    if |ms| != 0 {
      PruneMonthsKeepsAll(v, f, tz, ano, ms[1..]);
      FilterEventsKeepsAll(v, f, tz, ano, ms[0].mes, ms[0].eventos);
      assert ms[0].(eventos := ms[0].eventos) == ms[0];
      assert [ms[0]] + ms[1..] == ms;
    }
  }

  lemma {:induction false} PruneYearsKeepsAll(v: Variant, f: Filters, tz: int, ys: seq<Year>)
    requires Settled(v, f, tz, ys)
    ensures PruneYears(v, f, tz, ys) == ys
    decreases |ys|
  {
    if |ys| != 0 {
      var y := ys[0];
      assert y in ys;
      assert Settled(v, f, tz, ys[1..]) by {
        assert forall y' :: y' in ys[1..] ==> y' in ys;
      }
      PruneYearsKeepsAll(v, f, tz, ys[1..]);
      PruneMonthsKeepsAll(v, f, tz, y.ano, y.meses);
      assert PruneYears(v, f, tz, ys) == [y.(meses := y.meses)] + ys[1..];
      assert [y] + ys[1..] == ys;
    }
  }

  /** The filter leaves a tree unchanged exactly when the tree is already settled. */
  lemma FixedPoint(v: Variant, events: seq<Year>, f: Filters, tz: int)
    ensures Apply(v, events, f, tz) == events <==> Settled(v, f, tz, events)
  {
    if Settled(v, f, tz, events) {
      PruneYearsKeepsAll(v, f, tz, events);
    }
  }

  /** Filtering twice with the same criteria is filtering once. */
  lemma Idempotent(v: Variant, events: seq<Year>, f: Filters, tz: int)
    ensures Apply(v, Apply(v, events, f, tz), f, tz) == Apply(v, events, f, tz)
  {
    PruneYearsKeepsAll(v, f, tz, Apply(v, events, f, tz));
  }

  /**
   * With every criterion empty the tree comes back unchanged exactly when it
   * has no empty group: empty months and years are pruned even then.
   */
  lemma Identity(v: Variant, events: seq<Year>, tz: int)
    ensures Apply(v, events, NoFilters, tz) == events <==> NoEmptyGroups(events)
  {
    FixedPoint(v, events, NoFilters, tz);
    if NoEmptyGroups(events) {
      assert Settled(v, NoFilters, tz, events);
    }
  }

  // ---------------------------------------------------------------------
  // Adding a criterion

  /** `f2` keeps every criterion `f1` sets, and may set more. */
  predicate Narrows(f2: Filters, f1: Filters) {
    && (f1.year != "" ==> f2.year == f1.year)
    && (f1.month != "" ==> f2.month == f1.month)
    && (f1.location != "" ==> f2.location == f1.location)
    && (f1.modality != "" ==> f2.modality == f1.modality)
    && (f1.startDate != "" ==> f2.startDate == f1.startDate)
    && (f1.endDate != "" ==> f2.endDate == f1.endDate)
  }

  lemma {:induction false} SelectNarrows(v: Variant, f1: Filters, f2: Filters, tz: int, es: seq<Entry>)
    requires Narrows(f2, f1)
    ensures Subseq(Select(v, f2, tz, es), Select(v, f1, tz, es))
    decreases |es|
  {
    if |es| != 0 {
      SelectNarrows(v, f1, f2, tz, es[1..]);
      var a := Select(v, f2, tz, es[1..]);
      var b := Select(v, f1, tz, es[1..]);
      if Admits(v, f2, tz, es[0]) {
        assert Admits(v, f1, tz, es[0]);
        assert ([es[0]] + a)[1..] == a && ([es[0]] + b)[1..] == b;
      } else if Admits(v, f1, tz, es[0]) {
        assert Select(v, f2, tz, es) == a;
        assert Select(v, f1, tz, es) == [es[0]] + b;
        SubseqDropHead(a, b, es[0]);
      } else {
        assert Select(v, f2, tz, es) == a && Select(v, f1, tz, es) == b;
      }
    }
  }

  lemma SubseqDropHead<T>(a: seq<T>, b: seq<T>, x: T)
    requires Subseq(a, b)
    ensures Subseq(a, [x] + b)
  {
    assert ([x] + b)[1..] == b;
  }

  /** Adding a criterion keeps a subsequence of the events and never more of them. */
  lemma Monotone(v: Variant, events: seq<Year>, f1: Filters, f2: Filters, tz: int)
    requires Narrows(f2, f1)
    ensures Subseq(Entries(Apply(v, events, f2, tz)), Entries(Apply(v, events, f1, tz)))
    ensures EventCount(Apply(v, events, f2, tz)) <= EventCount(Apply(v, events, f1, tz))
  {
    ApplySelects(v, events, f1, tz);
    ApplySelects(v, events, f2, tz);
    SelectNarrows(v, f1, f2, tz, Entries(events));
    SubseqBounds(Entries(Apply(v, events, f2, tz)), Entries(Apply(v, events, f1, tz)));
  }

  // ---------------------------------------------------------------------
  // Two filters that agree on every node give the same tree

  ghost predicate SameVerdicts(v1: Variant, f1: Filters, v2: Variant, f2: Filters, tz: int, ys: seq<Year>) {
    forall y :: y in ys ==>
      YearOk(f1, y.ano) == YearOk(f2, y.ano) &&
      forall m :: m in y.meses ==>
        MonthOk(v1, f1, m.mes) == MonthOk(v2, f2, m.mes) &&
        forall e :: e in m.eventos ==> KeepEvent(v1, f1, tz, y.ano, m.mes, e) == KeepEvent(v2, f2, tz, y.ano, m.mes, e)
  }

  lemma {:induction false} FilterEventsAgree(v1: Variant, f1: Filters, v2: Variant, f2: Filters, tz: int, ano: int, mes: string, evs: seq<Event>)
    requires forall e :: e in evs ==> KeepEvent(v1, f1, tz, ano, mes, e) == KeepEvent(v2, f2, tz, ano, mes, e)
    ensures FilterEvents(v1, f1, tz, ano, mes, evs) == FilterEvents(v2, f2, tz, ano, mes, evs)
    decreases |evs|
  {
    if |evs| != 0 {
      FilterEventsAgree(v1, f1, v2, f2, tz, ano, mes, evs[1..]);
    }
  }

  lemma {:induction false} PruneMonthsAgree(v1: Variant, f1: Filters, v2: Variant, f2: Filters, tz: int, ano: int, ms: seq<Month>)
    requires forall m :: m in ms ==>
      MonthOk(v1, f1, m.mes) == MonthOk(v2, f2, m.mes) &&
      forall e :: e in m.eventos ==> KeepEvent(v1, f1, tz, ano, m.mes, e) == KeepEvent(v2, f2, tz, ano, m.mes, e)
    ensures PruneMonths(v1, f1, tz, ano, ms) == PruneMonths(v2, f2, tz, ano, ms)
    decreases |ms|
  {
    if |ms| != 0 {
      PruneMonthsAgree(v1, f1, v2, f2, tz, ano, ms[1..]);
      FilterEventsAgree(v1, f1, v2, f2, tz, ano, ms[0].mes, ms[0].eventos);
    }
  }

  lemma {:induction false} PruneYearsAgree(v1: Variant, f1: Filters, v2: Variant, f2: Filters, tz: int, ys: seq<Year>)
    requires SameVerdicts(v1, f1, v2, f2, tz, ys)
    ensures PruneYears(v1, f1, tz, ys) == PruneYears(v2, f2, tz, ys)
    decreases |ys|
  {
    if |ys| != 0 {
      PruneYearsAgree(v1, f1, v2, f2, tz, ys[1..]);
      PruneMonthsAgree(v1, f1, v2, f2, tz, ys[0].ano, ys[0].meses);
    }
  }

  /** Filters that give every year, month and event the same verdict give the same result. */
  lemma ApplyAgree(v1: Variant, f1: Filters, v2: Variant, f2: Filters, tz: int, events: seq<Year>)
    requires SameVerdicts(v1, f1, v2, f2, tz, events)
    ensures Apply(v1, events, f1, tz) == Apply(v2, events, f2, tz)
  {
    PruneYearsAgree(v1, f1, v2, f2, tz, events);
  }

  /**
   * Two variants that compute the same month index for every month of the
   * tree, and whose month tests agree, give the same result.
   */
  lemma SameIndexSameResult(v1: Variant, f1: Filters, v2: Variant, f2: Filters, tz: int, events: seq<Year>)
    requires f1.(month := "") == f2.(month := "")
    requires forall y, m :: y in events && m in y.meses ==>
      MonthOk(v1, f1, m.mes) == MonthOk(v2, f2, m.mes) &&
      ((f1.startDate == "" && f1.endDate == "") || MonthIndex(v1, m.mes) == MonthIndex(v2, m.mes))
    ensures Apply(v1, events, f1, tz) == Apply(v2, events, f2, tz)
  {
    assert SameVerdicts(v1, f1, v2, f2, tz, events) by {
      forall y, m, e | y in events && m in y.meses && e in m.eventos
        ensures KeepEvent(v1, f1, tz, y.ano, m.mes, e) == KeepEvent(v2, f2, tz, y.ano, m.mes, e)
      {
        assert f1.location == f2.location && f1.modality == f2.modality;
        assert f1.startDate == f2.startDate && f1.endDate == f2.endDate;
      }
    }
    ApplyAgree(v1, f1, v2, f2, tz, events);
  }

  // ---------------------------------------------------------------------
  // The date range in calendar days

  /**
   * The date criterion read on calendar days, for a local offset `tz`. The
   * start day is inclusive unless the zone is east of UTC, and the end day is
   * inclusive unless the zone is west of UTC. A first day that is not a
   * number, or a bound that does not parse, never rejects.
   */
  predicate DayRangeAdmits(f: Filters, day: Option<int>, tz: int) {
    day.None? ||
    (&& (f.startDate == "" || ParseDay(f.startDate).None? ||
         (if tz >= 0 then ParseDay(f.startDate).value <= day.value else ParseDay(f.startDate).value < day.value))
     && (f.endDate == "" || ParseDay(f.endDate).None? ||
         (if tz > 0 then day.value < ParseDay(f.endDate).value else day.value <= ParseDay(f.endDate).value)))
  }

  /** The time-value comparisons of the filter, restated on calendar days. */
  lemma DateTestByDay(v: Variant, f: Filters, tz: int, ano: int, mes: string, ev: Event)
    requires -1440 < tz < 1440
    ensures DateOk(f, Anchor(v, ano, mes, ev, tz)) <==> DayRangeAdmits(f, AnchorDay(v, ano, mes, ev), tz)
  {
    var day := AnchorDay(v, ano, mes, ev);
    if day.Some? {
      if f.startDate != "" && ParseDay(f.startDate).Some? {
        LocalVersusUtc(day.value, ParseDay(f.startDate).value, tz);
      }
      if f.endDate != "" && ParseDay(f.endDate).Some? {
        LocalVersusUtc(day.value, ParseDay(f.endDate).value, tz);
      }
    }
  }

  /** Local midnight of day `e` against UTC midnight of day `b`, for an offset of less than a day. */
  lemma LocalVersusUtc(e: int, b: int, tz: int)
    requires -1440 < tz < 1440
    ensures e * MsPerDay + tz * MsPerMinute < b * MsPerDay <==> (if tz >= 0 then e < b else e <= b)
    ensures b * MsPerDay < e * MsPerDay + tz * MsPerMinute <==> (if tz > 0 then b <= e else b < e)
  {
  }

  /** At UTC (offset 0) both bounds are inclusive: the range is start <= day <= end. */
  lemma InclusiveAtUtc(f: Filters, day: int)
    ensures DayRangeAdmits(f, Some(day), 0) <==>
      (f.startDate == "" || ParseDay(f.startDate).None? || ParseDay(f.startDate).value <= day) &&
      (f.endDate == "" || ParseDay(f.endDate).None? || day <= ParseDay(f.endDate).value)
  {
  }
}

=== FILE: event_card.dfy ===
/**
 * The pure fragments of the event card (src/components/EventCard.tsx): the
 * badge colour, the date and location labels, the iframe preview test and
 * the "past event" flag.
 */
module EventCard {
  import opened Options
  import opened Strings
  import opened Numbers
  import opened Calendar
  import opened Types
  import opened Constants
  import DateUtils
  import EventUtils

  /** The card's fallback colour, which is not `BADGE_COLORS["default"]`. */
  const BADGE_FALLBACK: string := "bg-background/20"

  /** `getBadgeColor`: an exact, case-sensitive match on the three modalities. */
  function GetBadgeColor(tipo: string): (r: string)
    ensures tipo in EVENT_TYPES ==> r == BADGE_COLORS[tipo]
    ensures tipo !in EVENT_TYPES ==> r == BADGE_FALLBACK
  {
    match tipo
    case "presencial" => "bg-sky-600/90"
    case "híbrido" => "bg-purple-900/80"
    case "online" => "bg-orange-600/90"
    case _ => BADGE_FALLBACK
  }

  /** A modality written with a capital letter gets the fallback colour, which differs from every modality's. */
  lemma BadgeColorIsCaseSensitive()
    ensures GetBadgeColor("Presencial") == BADGE_FALLBACK
    ensures forall t :: t in EVENT_TYPES ==> GetBadgeColor(t) != BADGE_FALLBACK
    ensures BADGE_FALLBACK != BADGE_COLORS["default"]
  {
  }

  /** `formattedDate`: "first - last" for several days, else `data[0]`, which is `undefined` for none. */
  function FormattedDate(data: seq<string>): (r: Option<string>)
    ensures |data| == 0 <==> r.None?
    ensures |data| > 0 ==> r == Some(DateUtils.FormatEventDate(data))
  {
    if |data| > 1 then Some(data[0] + " - " + data[|data| - 1])
    else if |data| == 1 then Some(data[0])
    else None
  }

  /** The card's `location` expression. */
  function Location(ev: Event): (r: string)
    ensures r == EventUtils.FormatEventLocation(ev.cidade, ev.uf, ev.tipo)
  {
    if ev.cidade != "" && ev.uf != "" then ev.cidade + ", " + ev.uf
    else if ev.tipo == "online" then ""
    else "Sem informação de local"
  }

  /** `shortMonth`: the same expression as `formatShortMonth`. */
  function ShortMonth(month: string): (r: string)
    ensures r == DateUtils.FormatShortMonth(month)
    ensures |month| >= 3 && (forall i :: 0 <= i < 3 ==> month[i] != '\U{DF}') ==> |r| == 3
  {
    Upper(month[..if |month| < 3 then |month| else 3])
  }

  /** The card's own copy of the blocked prefixes. */
  const BLOCKED_DOMAINS: seq<string> := [
    "https://www.meetup.com",
    "https://www.sympla.com.br",
    "https://www.instagram.com"
  ]

  lemma BlockedDomainsAreShared()
    ensures BLOCKED_DOMAINS == BLOCKED_IFRAME_DOMAINS
  {
  }

  /** `blockedDomains.some((domain) => url.startsWith(domain))`, scanned left to right. */
  function AnyPrefix(domains: seq<string>, url: string): (r: bool)
    ensures r <==> exists i :: 0 <= i < |domains| && StartsWith(url, domains[i])
  {
    if |domains| == 0 then false
    else if StartsWith(url, domains[0]) then true
    else
      var r := AnyPrefix(domains[1..], url);
      assert forall i :: 1 <= i < |domains| ==> domains[1..][i - 1] == domains[i];
      r
  }

  /** The preview stays allowed exactly when the URL starts with none of the blocked prefixes. */
  function IframeAllowed(url: string): (r: bool)
    ensures r <==> forall d :: d in BLOCKED_IFRAME_DOMAINS ==> !StartsWith(url, d)
  {
    !AnyPrefix(BLOCKED_DOMAINS, url)
  }

  /** The test is on the exact prefix: a page of a blocked site is blocked, the bare host is not. */
  lemma IframePrefixExamples()
    ensures !IframeAllowed("https://www.meetup.com/grupo/events/1")
    ensures IframeAllowed("https://meetup.com/grupo/events/1")
  {
    var u := "https://www.meetup.com/grupo/events/1";
    assert StartsWith(u, BLOCKED_IFRAME_DOMAINS[0]);
    var w := "https://meetup.com/grupo/events/1";
    assert w[8] != BLOCKED_IFRAME_DOMAINS[0][8];
    assert w[8] != BLOCKED_IFRAME_DOMAINS[1][8];
    assert w[8] != BLOCKED_IFRAME_DOMAINS[2][8];
  }

  /** The card's month table: `MONTH_MAP` without the accent-free "marco". */
  const MONTH_TABLE: map<string, int> := map[
    "janeiro" := 0, "fevereiro" := 1, "março" := 2, "abril" := 3,
    "maio" := 4, "junho" := 5, "julho" := 6, "agosto" := 7,
    "setembro" := 8, "outubro" := 9, "novembro" := 10, "dezembro" := 11
  ]

  /**
   * `isPast` of the card: the event's last day in `currentYear`, looked up
   * through the card's table after normalising the name. A name the table
   * lacks gives `undefined` as the month, hence an Invalid Date, hence false.
   */
  function IsPast(data: seq<string>, month: string, currentYear: int, today: int, tz: int): (r: bool)
    ensures |data| == 0 ==> !r
  {
    if |data| == 0 then false
    else
      var lastDay := data[|data| - 1];
      var normalizedMonth := DateUtils.NormalizeMonthName(month);
      var monthIndex := if normalizedMonth in MONTH_TABLE then Int(MONTH_TABLE[normalizedMonth]) else NaN;
      var eventDate := NewDate(Int(currentYear), monthIndex, ParseInt(lastDay), tz);
      Before(eventDate, DateUtils.Midnight(today, tz))
  }

  /**
   * The "março" key of the card's table is never looked up, since the name is
   * normalised first: a March event is never shown as past, however old.
   */
  lemma MarchNeverPast(data: seq<string>, month: string, currentYear: int, today: int, tz: int)
    requires DateUtils.NormalizeMonthName(month) == "marco"
    ensures !IsPast(data, month, currentYear, today, tz)
  {
  }

  /** Away from March the card agrees with `isEventPast` for the current year. */
  lemma IsPastAgreesElsewhere(data: seq<string>, month: string, currentYear: int, today: int, tz: int)
    requires DateUtils.NormalizeMonthName(month) != "marco"
    ensures IsPast(data, month, currentYear, today, tz) == DateUtils.IsEventPast(data, month, currentYear, today, tz)
  {
    var key := DateUtils.NormalizeMonthName(month);
    if key == "março" {
      DateUtils.NormalizedHasNoCedilla(month, 3);
      assert false;
    }
    assert key in MONTH_TABLE <==> key in MONTH_MAP;
  }

  /** The card with `MONTH_MAP` as its table: `isEventPast` for the current year. */
  function IsPastCorrected(data: seq<string>, month: string, currentYear: int, today: int, tz: int): (r: bool)
    ensures r == DateUtils.IsEventPast(data, month, currentYear, today, tz)
  {
    if |data| == 0 then false
    else
      var normalizedMonth := DateUtils.NormalizeMonthName(month);
      var monthIndex := if normalizedMonth in MONTH_MAP then Int(MONTH_MAP[normalizedMonth]) else NaN;
      Before(NewDate(Int(currentYear), monthIndex, ParseInt(data[|data| - 1]), tz), DateUtils.Midnight(today, tz))
  }

  /** With the corrected table an old March event is shown as past. */
  lemma MarchPastWhenCorrected(data: seq<string>, month: string, currentYear: nat, d: nat, today: int, tz: int)
    requires 100 <= currentYear && Lower(month) == "março"
    requires |data| > 0 && data[|data| - 1] == NatToString(d)
    requires MakeDay(currentYear, 2, d) < today
    ensures IsPastCorrected(data, month, currentYear, today, tz)
    ensures !IsPast(data, month, currentYear, today, tz)
  {
    DateUtils.MonthNamesResolve(month, 2);
    DateUtils.PastExactlyBeforeToday(data, month, currentYear, 2, d, today, tz);
  }
}

=== FILE: event_utils.dfy ===
/** The event helpers and the month-aware filter of src/lib/eventUtils.ts. */
module EventUtils {
  import opened Options
  import opened Strings
  import opened Numbers
  import opened Calendar
  import opened Sequences
  import opened Types
  import opened Constants
  import opened Engine

  /** The copy with a month filter, reading month indices from `MONTH_MAP` with `|| 0`. */
  const Library: Variant := Variant(true, MONTH_MAP, OrZero)

  /** `applyEventFilters(events, filters)` under a local offset of `tz` minutes. */
  function ApplyEventFilters(events: seq<Year>, filters: Filters, tz: int): (r: seq<Year>)
    ensures YearsWithin(r, events)
    ensures NoEmptyGroups(r)
  {
    Apply(Library, events, filters, tz)
  }

  /** Every criterion of the library filter on one event, with the date range read on calendar days. */
  predicate Passes(filters: Filters, tz: int, e: Entry) {
    && (filters.year == "" || IntToString(e.ano) == filters.year)
    && (filters.month == "" || Lower(e.mes) == Lower(filters.month))
    && (filters.location == "" || Includes(Lower(e.ev.cidade), Lower(filters.location)))
    && (filters.modality == "" || Lower(e.ev.tipo) == Lower(filters.modality))
    && DayRangeAdmits(filters, AnchorDay(Library, e.ano, e.mes, e.ev), tz)
  }

  /**
   * The events of the result, with their year and month, are the input
   * events that meet every criterion, in input order and with their
   * repetitions: `filter` by `Passes` on the flat list.
   */
  lemma Characterisation(events: seq<Year>, filters: Filters, tz: int)
    requires -1440 < tz < 1440
    ensures Subseq(Entries(ApplyEventFilters(events, filters, tz)), Entries(events))
    ensures forall e :: e in Entries(ApplyEventFilters(events, filters, tz)) <==>
      e in Entries(events) && Passes(filters, tz, e)
    ensures Entries(ApplyEventFilters(events, filters, tz)) == Filter((e: Entry) => Passes(filters, tz, e), Entries(events))
  {
    ApplySelects(Library, events, filters, tz);
    SelectMembers(Library, filters, tz, Entries(events));
    forall e: Entry
      ensures Admits(Library, filters, tz, e) <==> Passes(filters, tz, e)
    {
      DateTestByDay(Library, filters, tz, e.ano, e.mes, e.ev);
    }
    SelectIsFilter(Library, filters, tz, (e: Entry) => Passes(filters, tz, e), Entries(events));
  }

  /** A year selected by its decimal string keeps only that year's events. */
  lemma YearExact(events: seq<Year>, filters: Filters, tz: int, n: int)
    requires filters.year == IntToString(n)
    ensures forall y :: y in ApplyEventFilters(events, filters, tz) ==> y.ano == n
  {
    forall y | y in ApplyEventFilters(events, filters, tz)
      ensures y.ano == n
    {
      IntToStringInjective(y.ano, n);
    }
  }

  /** The month filter compares lower-cased names: every month left has the chosen name. */
  lemma MonthExact(events: seq<Year>, filters: Filters, tz: int)
    requires filters.month != ""
    ensures forall y, m :: y in ApplyEventFilters(events, filters, tz) && m in y.meses ==> Lower(m.mes) == Lower(filters.month)
  {
  }

  /**
   * With the browser at UTC an event anchored on the start day or on the end
   * day is kept by the date range: both bounds are inclusive.
   */
  lemma BoundsInclusiveAtUtc(ano: nat, m: nat, d: nat, ev: Event, filters: Filters)
    requires 100 <= ano <= 9999 && m < 12 && 1 <= d <= DaysInMonth(ano, m)
    requires |ev.data| > 0 && ev.data[0] == NatToString(d)
    requires filters.startDate == DateInputValue(ano, m, d) && filters.endDate == DateInputValue(ano, m, d)
    ensures DateOk(filters, Anchor(Library, ano, MONTH_NAMES[m], ev, 0))
  {
    AnchorOfMonthName(ano, m, d, ev);
    ParseDateInputValue(ano, m, d);
    DateTestByDay(Library, filters, 0, ano, MONTH_NAMES[m], ev);
  }

  /**
   * West of UTC (a positive offset, as in Brazil) an event anchored on the end
   * day itself is rejected: its local midnight falls after the UTC midnight
   * the end date denotes.
   */
  lemma EndDayRejectedWestOfUtc(ano: nat, m: nat, d: nat, ev: Event, filters: Filters, tz: int)
    requires 100 <= ano <= 9999 && m < 12 && 1 <= d <= DaysInMonth(ano, m)
    requires |ev.data| > 0 && ev.data[0] == NatToString(d)
    requires filters.endDate == DateInputValue(ano, m, d)
    requires 0 < tz < 1440
    ensures !DateOk(filters, Anchor(Library, ano, MONTH_NAMES[m], ev, tz))
  {
    AnchorOfMonthName(ano, m, d, ev);
    ParseDateInputValue(ano, m, d);
    DateTestByDay(Library, filters, tz, ano, MONTH_NAMES[m], ev);
  }

  /** An event of day `d` in the month named `MONTH_NAMES[m]` is anchored on that calendar day. */
  lemma AnchorOfMonthName(ano: nat, m: nat, d: nat, ev: Event)
    requires 100 <= ano && m < 12
    requires |ev.data| > 0 && ev.data[0] == NatToString(d)
    ensures AnchorDay(Library, ano, MONTH_NAMES[m], ev) == Some(MakeDay(ano, m, d))
  {
    MonthNamesIndexed();
    MonthNamesAreLowerCase(m);
  }

  lemma MonthNamesAreLowerCase(m: nat)
    requires m < 12
    ensures Lower(MONTH_NAMES[m]) == MONTH_NAMES[m]
  {
    var s := MONTH_NAMES[m];
    assert forall i :: 0 <= i < |s| ==> !IsUpperLetter(s[i]);
  }

  /**
   * The same filter with the offset fixed at 0, which is what building the
   * anchor with `Date.UTC` gives: the date range becomes inclusive at both
   * ends whatever the browser's zone.
   */
  function ApplyEventFiltersUtc(events: seq<Year>, filters: Filters): (r: seq<Year>)
    ensures YearsWithin(r, events)
    ensures NoEmptyGroups(r)
  {
    Apply(Library, events, filters, 0)
  }

  /** With the anchor taken at UTC, an event dated on the end day is kept by the date range. */
  lemma UtcKeepsEndDay(ano: nat, m: nat, d: nat, ev: Event, filters: Filters)
    requires 100 <= ano <= 9999 && m < 12 && 1 <= d <= DaysInMonth(ano, m)
    requires |ev.data| > 0 && ev.data[0] == NatToString(d)
    requires filters.startDate == "" && filters.endDate == DateInputValue(ano, m, d)
    requires filters.year == "" && filters.month == "" && filters.location == "" && filters.modality == ""
    ensures ApplyEventFiltersUtc([Year(ano, false, [Month(MONTH_NAMES[m], false, [ev])])], filters) ==
      [Year(ano, false, [Month(MONTH_NAMES[m], false, [ev])])]
  {
    AnchorOfMonthName(ano, m, d, ev);
    ParseDateInputValue(ano, m, d);
    DateTestByDay(Library, filters, 0, ano, MONTH_NAMES[m], ev);
    var tree := [Year(ano, false, [Month(MONTH_NAMES[m], false, [ev])])];
    assert Settled(Library, filters, 0, tree);
    FixedPoint(Library, tree, filters, 0);
  }

  // ---------------------------------------------------------------------
  // Helpers

  /** The lower-cased non-empty `tipo`s of a list of events, in reading order. */
  function TypeTags(es: seq<Entry>): (r: seq<string>)
    ensures forall x :: x in r <==> exists e :: e in es && e.ev.tipo != "" && Lower(e.ev.tipo) == x
  {
    if |es| == 0 then []
    else
      var rest := TypeTags(es[1..]);
      assert forall e :: e in es <==> e == es[0] || e in es[1..];
      if es[0].ev.tipo != "" then [Lower(es[0].ev.tipo)] + rest else rest
  }

  /** `getUniqueEventTypes`: the lower-cased non-empty types, each once, in order of first appearance. */
  method GetUniqueEventTypes(eventsData: seq<Year>) returns (types: seq<string>)
    ensures NoDuplicates(types)
    ensures forall x :: x in types <==> exists e :: e in Entries(eventsData) && e.ev.tipo != "" && Lower(e.ev.tipo) == x
    ensures forall x :: x in types ==> x in TypeTags(Entries(eventsData))
    ensures FirstOccurrenceOrder(types, TypeTags(Entries(eventsData)))
  {
    types := Distinct(TypeTags(Entries(eventsData)));
  }

  /** `e.ano.toString()` for every year group, in order. */
  function YearStrings(events: seq<Year>): (r: seq<string>)
    ensures |r| == |events|
    ensures forall i :: 0 <= i < |events| ==> r[i] == IntToString(events[i].ano)
  {
    seq(|events|, i requires 0 <= i < |events| => IntToString(events[i].ano))
  }

  /** `getUniqueYears`: the years as strings, each once, in order of first appearance. */
  method GetUniqueYears(events: seq<Year>) returns (years: seq<string>)
    ensures NoDuplicates(years)
    ensures forall x :: x in years <==> exists y :: y in events && IntToString(y.ano) == x
    ensures forall x :: x in years ==> x in YearStrings(events)
    ensures FirstOccurrenceOrder(years, YearStrings(events))
  {
    var all := YearStrings(events);
    years := Distinct(all);
    forall x
      ensures x in years <==> exists y :: y in events && IntToString(y.ano) == x
    {
      if x in all {
        var i :| 0 <= i < |all| && all[i] == x;
        assert events[i] in events;
      }
    }
  }

  /** Distinct entries of the unique-year list name distinct years. */
  lemma UniqueYearsAreDistinctYears(years: seq<string>, i: int, j: int, a: int, b: int)
    requires NoDuplicates(years) && 0 <= i < j < |years|
    requires years[i] == IntToString(a) && years[j] == IntToString(b)
    ensures a != b
  {
    IntToStringInjective(a, b);
  }

  const NO_LOCATION: string := "Sem informação de local"

  /** `formatEventLocation`: "cidade, uf", else "" for an online event, else the no-location text. */
  function FormatEventLocation(cidade: string, uf: string, tipo: string): (r: string)
    ensures cidade != "" && uf != "" ==> r == cidade + ", " + uf
    ensures r == "" <==> (cidade == "" || uf == "") && tipo == ONLINE
    ensures r == NO_LOCATION <==> (cidade == "" || uf == "") && tipo != ONLINE
  {
    if cidade != "" && uf != "" then
      var r := cidade + ", " + uf;
      assert r[|cidade|] == ',';
      assert forall i :: 0 <= i < |NO_LOCATION| ==> NO_LOCATION[i] != ',';
      r
    else if tipo == ONLINE then ""
    else NO_LOCATION
  }
}

=== FILE: filter_events.dfy ===
/**
 * The filter of src/components/FilterEvents.tsx, the one the event list
 * page calls. It has no month criterion, and its own month table spells
 * March as "marÃ§o": the UTF-8 bytes of "ç" read back as two Latin-1
 * characters. In the source this key is unquoted, and U+00A7 is not an
 * identifier character; the model reads the key as the string "marÃ§o".
 */
module FilterEventsComponent {
  import opened Options
  import opened Strings
  import opened Numbers
  import opened Calendar
  import opened Types
  import opened Constants
  import opened Engine
  import EventUtils

  /** The mis-encoded March key, "mar" + U+00C3 + U+00A7 + "o". */
  const MOJIBAKE_MARCO: string := "mar\U{C3}\U{A7}o"

  const MONTH_MAPPING: map<string, int> := map[
    "janeiro" := 0, "fevereiro" := 1, MOJIBAKE_MARCO := 2, "abril" := 3,
    "maio" := 4, "junho" := 5, "julho" := 6, "agosto" := 7,
    "setembro" := 8, "outubro" := 9, "novembro" := 10, "dezembro" := 11
  ]

  /** No month filter; month indices from the table above with `|| 0`. */
  const Component: Variant := Variant(false, MONTH_MAPPING, OrZero)

  /**
   * `applyEventFilters(events, filters)` of the component. The caller passes
   * a `month` key as well (src/components/EventList.tsx:41-49); it is read nowhere.
   */
  function ApplyEventFilters(events: seq<Year>, filters: Filters, tz: int): (r: seq<Year>)
    ensures YearsWithin(r, events)
    ensures NoEmptyGroups(r)
  {
    Apply(Component, events, filters, tz)
  }

  /** The `month` criterion has no effect on this copy. */
  lemma MonthIgnored(events: seq<Year>, filters: Filters, month: string, tz: int)
    ensures ApplyEventFilters(events, filters.(month := month), tz) == ApplyEventFilters(events, filters, tz)
  {
    SameIndexSameResult(Component, filters.(month := month), Component, filters, tz, events);
  }

  /** A lower-cased name never contains "Ã", so the mis-encoded key can never be looked up. */
  lemma MojibakeKeyUnreachable(mes: string)
    ensures Lower(mes) != MOJIBAKE_MARCO
  {
    if |mes| == |MOJIBAKE_MARCO| {
      LowerHasNoUpper(mes, 3);
      assert IsUpperLetter(MOJIBAKE_MARCO[3]);
    }
  }

  /** "março", whatever its case, reads as January here and as March in `MONTH_MAP`. */
  lemma MarchReadsAsJanuary(mes: string)
    requires Lower(mes) == "março"
    ensures MonthIndex(Component, mes) == 0
    ensures MonthIndex(EventUtils.Library, mes) == 2
  {
  }

  /** Apart from the two spellings of March, the tables give every month name the same index. */
  lemma TablesAgreeElsewhere(mes: string)
    requires Lower(mes) != "março" && Lower(mes) != "marco"
    ensures MonthIndex(Component, mes) == MonthIndex(EventUtils.Library, mes)
  {
    MojibakeKeyUnreachable(mes);
  }

  /** No month of the tree is named "março" or "marco", in any case. */
  ghost predicate NoMarch(events: seq<Year>) {
    forall y, m :: y in events && m in y.meses ==> Lower(m.mes) != "março" && Lower(m.mes) != "marco"
  }

  /**
   * Without a date bound, or on a tree with no March month, this copy gives
   * the library filter's result for the same criteria without `month`.
   */
  lemma MatchesLibrary(events: seq<Year>, filters: Filters, tz: int)
    requires (filters.startDate == "" && filters.endDate == "") || NoMarch(events)
    ensures ApplyEventFilters(events, filters, tz) == EventUtils.ApplyEventFilters(events, filters.(month := ""), tz)
  {
    forall y, m | y in events && m in y.meses && !(filters.startDate == "" && filters.endDate == "")
      ensures MonthIndex(Component, m.mes) == MonthIndex(EventUtils.Library, m.mes)
    {
      TablesAgreeElsewhere(m.mes);
    }
    SameIndexSameResult(Component, filters, EventUtils.Library, filters.(month := ""), tz, events);
  }

  /**
   * A March event on day `d` is anchored in January, so a start date in
   * February drops it here while the library filter keeps it.
   */
  lemma MarchEventDropped(ano: nat, d: nat, ev: Event, tz: int)
    requires 100 <= ano <= 9999 && 1 <= d <= 28
    requires |ev.data| > 0 && ev.data[0] == NatToString(d)
    requires -1440 < tz < 1440
    ensures var filters := NoFilters.(startDate := DateInputValue(ano, 1, 1));
      && !KeepEvent(Component, filters, tz, ano, "março", ev)
      && KeepEvent(EventUtils.Library, filters, tz, ano, "março", ev)
  {
    var filters := NoFilters.(startDate := DateInputValue(ano, 1, 1));
    ParseDateInputValue(ano, 1, 1);
    StartInFebruary(filters, ano, d, ev, tz);
  }

  lemma StartInFebruary(filters: Filters, ano: nat, d: nat, ev: Event, tz: int)
    requires 100 <= ano && 1 <= d <= 28
    requires |ev.data| > 0 && ev.data[0] == NatToString(d)
    requires -1440 < tz < 1440
    requires filters.startDate != "" && ParseDay(filters.startDate) == Some(MakeDay(ano, 1, 1))
    requires filters.endDate == "" && filters.location == "" && filters.modality == ""
    ensures !KeepEvent(Component, filters, tz, ano, "março", ev)
    ensures KeepEvent(EventUtils.Library, filters, tz, ano, "março", ev)
  {
    var start := MakeDay(ano, 1, 1);
    MarchAnchors(ano, d, ev);
    JanuaryBeforeMarch(ano, d);
    assert !DayRangeAdmits(filters, AnchorDay(Component, ano, "março", ev), tz);
    assert DayRangeAdmits(filters, AnchorDay(EventUtils.Library, ano, "março", ev), tz);
    DateTestByDay(Component, filters, tz, ano, "março", ev);
    DateTestByDay(EventUtils.Library, filters, tz, ano, "março", ev);
  }

  /** Day `d` of January comes before 1 February, and day `d` of March after it. */
  lemma JanuaryBeforeMarch(ano: int, d: int)
    requires 1 <= d <= 28
    ensures MakeDay(ano, 0, d) < MakeDay(ano, 1, 1) < MakeDay(ano, 2, d)
  {
    FirstOfMonthStep(ano, 0);
    FirstOfMonthStep(ano, 1);
  }

  /** The anchor day of a "março" event of day `d`: in January here, in March in the library. */
  lemma MarchAnchors(ano: nat, d: nat, ev: Event)
    requires 100 <= ano && |ev.data| > 0 && ev.data[0] == NatToString(d)
    ensures AnchorDay(Component, ano, "março", ev) == Some(MakeDay(ano, 0, d))
    ensures AnchorDay(EventUtils.Library, ano, "março", ev) == Some(MakeDay(ano, 2, d))
  {
    MarchReadsAsJanuary("março");
  }

  /**
   * The component with `MONTH_MAP` as its table: the same result as the
   * library filter without `month`, on every tree.
   */
  function ApplyEventFiltersCorrected(events: seq<Year>, filters: Filters, tz: int): (r: seq<Year>)
    ensures r == EventUtils.ApplyEventFilters(events, filters.(month := ""), tz)
  {
    SameIndexSameResult(Variant(false, MONTH_MAP, OrZero), filters, EventUtils.Library, filters.(month := ""), tz, events);
    Apply(Variant(false, MONTH_MAP, OrZero), events, filters, tz)
  }
}

=== FILE: home_page.dfy ===
/**
 * The filter and the year list of the home page (src/app/page.tsx). Its
 * filter has no month criterion, its month table has no "marco" key, and it
 * supplies index 0 with `?? 0`.
 */
module HomePage {
  import opened Options
  import opened Strings
  import opened Numbers
  import opened Sequences
  import opened Types
  import opened Constants
  import opened Engine
  import EventUtils

  const MONTH_MAPPING: map<string, int> := map[
    "janeiro" := 0, "fevereiro" := 1, "março" := 2, "abril" := 3,
    "maio" := 4, "junho" := 5, "julho" := 6, "agosto" := 7,
    "setembro" := 8, "outubro" := 9, "novembro" := 10, "dezembro" := 11
  ]

  const Page: Variant := Variant(false, MONTH_MAPPING, NullishZero)

  /** The page's table is `MONTH_MAP` without its accent-free "marco" key. */
  lemma TableIsMonthMapWithoutMarco()
    ensures MONTH_MAPPING == MONTH_MAP - {"marco"}
  {
  }

  /**
   * `filterEvents(eventsData, anoSelecionado)` with the page's state `local`,
   * `startDate`, `endDate` and `tipo`, under a local offset of `tz` minutes.
   */
  function FilterEvents(eventsData: seq<Year>, anoSelecionado: string, local: string,
                        startDate: string, endDate: string, tipo: string, tz: int): (r: seq<Year>)
    ensures YearsWithin(r, eventsData)
    ensures NoEmptyGroups(r)
  {
    Apply(Page, eventsData, Filters(anoSelecionado, "", local, tipo, startDate, endDate), tz)
  }

  /** Every criterion of the page's filter on one event, with the date range read on calendar days. */
  predicate Passes(anoSelecionado: string, local: string, startDate: string, endDate: string, tipo: string, tz: int, e: Entry) {
    && (anoSelecionado == "" || IntToString(e.ano) == anoSelecionado)
    && (local == "" || Includes(Lower(e.ev.cidade), Lower(local)))
    && (tipo == "" || Lower(e.ev.tipo) == Lower(tipo))
    && DayRangeAdmits(Filters(anoSelecionado, "", local, tipo, startDate, endDate), AnchorDay(Page, e.ano, e.mes, e.ev), tz)
  }

  /** The events left, with their year and month, are `filter` by `Passes` on the flat list of the input. */
  lemma Characterisation(eventsData: seq<Year>, anoSelecionado: string, local: string,
                         startDate: string, endDate: string, tipo: string, tz: int)
    requires -1440 < tz < 1440
    ensures var r := FilterEvents(eventsData, anoSelecionado, local, startDate, endDate, tipo, tz);
      && Subseq(Entries(r), Entries(eventsData))
      && (forall e :: e in Entries(r) <==> e in Entries(eventsData) && Passes(anoSelecionado, local, startDate, endDate, tipo, tz, e))
      && Entries(r) == Filter((e: Entry) => Passes(anoSelecionado, local, startDate, endDate, tipo, tz, e), Entries(eventsData))
  {
    var f := Filters(anoSelecionado, "", local, tipo, startDate, endDate);
    ApplySelects(Page, eventsData, f, tz);
    SelectMembers(Page, f, tz, Entries(eventsData));
    forall e: Entry
      ensures Admits(Page, f, tz, e) <==> Passes(anoSelecionado, local, startDate, endDate, tipo, tz, e)
    {
      DateTestByDay(Page, f, tz, e.ano, e.mes, e.ev);
    }
    SelectIsFilter(Page, f, tz, (e: Entry) => Passes(anoSelecionado, local, startDate, endDate, tipo, tz, e), Entries(eventsData));
  }

  /** "marco", whatever its case, reads as January here and as March in `MONTH_MAP`. */
  lemma MarcoReadsAsJanuary(mes: string)
    requires Lower(mes) == "marco"
    ensures MonthIndex(Page, mes) == 0
    ensures MonthIndex(EventUtils.Library, mes) == 2
  {
  }

  /** No month of the tree is named "marco", in any case. */
  ghost predicate NoMarco(events: seq<Year>) {
    forall y, m :: y in events && m in y.meses ==> Lower(m.mes) != "marco"
  }

  /**
   * Without a date bound, or on a tree with no "marco" month, the page's
   * filter gives the library filter's result for the same criteria.
   */
  lemma MatchesLibrary(eventsData: seq<Year>, anoSelecionado: string, local: string,
                       startDate: string, endDate: string, tipo: string, tz: int)
    requires (startDate == "" && endDate == "") || NoMarco(eventsData)
    ensures FilterEvents(eventsData, anoSelecionado, local, startDate, endDate, tipo, tz) ==
      EventUtils.ApplyEventFilters(eventsData, Filters(anoSelecionado, "", local, tipo, startDate, endDate), tz)
  {
    var f := Filters(anoSelecionado, "", local, tipo, startDate, endDate);
    forall y, m | y in eventsData && m in y.meses && !(startDate == "" && endDate == "")
      ensures MonthIndex(Page, m.mes) == MonthIndex(EventUtils.Library, m.mes)
    {
      FallbacksAgree(Page, m.mes);
      FallbacksAgree(EventUtils.Library, m.mes);
    }
    SameIndexSameResult(Page, f, EventUtils.Library, f, tz, eventsData);
  }

  /**
   * On load the page selects the current year: the events shown are exactly
   * that year's events, in input order.
   */
  lemma InitialViewIsCurrentYear(eventsData: seq<Year>, currentYear: int, tz: int)
    ensures var r := FilterEvents(eventsData, IntToString(currentYear), "", "", "", "", tz);
      && Subseq(Entries(r), Entries(eventsData))
      && (forall e :: e in Entries(r) <==> e in Entries(eventsData) && e.ano == currentYear)
  {
    var f := Filters(IntToString(currentYear), "", "", "", "", "");
    ApplySelects(Page, eventsData, f, tz);
    SelectMembers(Page, f, tz, Entries(eventsData));
    forall e: Entry
      ensures Admits(Page, f, tz, e) <==> e.ano == currentYear
    {
      IntToStringInjective(e.ano, currentYear);
    }
  }

  /** The initial view is the current year's events of the flat list, with their repetitions. */
  lemma InitialViewIsYearFilter(eventsData: seq<Year>, currentYear: int, tz: int)
    ensures Entries(FilterEvents(eventsData, IntToString(currentYear), "", "", "", "", tz)) ==
      Filter((e: Entry) => e.ano == currentYear, Entries(eventsData))
  {
    var f := Filters(IntToString(currentYear), "", "", "", "", "");
    ApplySelects(Page, eventsData, f, tz);
    forall e | e in Entries(eventsData)
      ensures (e.ano == currentYear) == Admits(Page, f, tz, e)
    {
      IntToStringInjective(e.ano, currentYear);
    }
    SelectIsFilter(Page, f, tz, (e: Entry) => e.ano == currentYear, Entries(eventsData));
  }

  /** `[...new Set(eventsData.map((e) => e.ano.toString()))]`: the year strings, each once, in order. */
  method AvailableYears(eventsData: seq<Year>) returns (anos: seq<string>)
    ensures NoDuplicates(anos)
    ensures forall x :: x in anos <==> exists y :: y in eventsData && IntToString(y.ano) == x
    ensures FirstOccurrenceOrder(anos, EventUtils.YearStrings(eventsData))
  {
    anos := EventUtils.GetUniqueYears(eventsData);
  }
}

=== FILE: numbers.dfy ===
/**
 * The parts of JavaScript number handling the filters rely on:
 * `Number(s)` and `parseInt(s)` on decimal strings, and `n.toString()`
 * on an integer. Only integer values occur, so a number is either an
 * integer or NaN.
 */
module Numbers {

  datatype Num = NaN | Int(value: int)

  predicate IsDigit(c: char) {
    '0' <= c <= '9'
  }

  function DigitValue(c: char): (d: nat)
    requires IsDigit(c)
    ensures d < 10
  {
    c as int - '0' as int
  }

  function DigitChar(d: nat): (c: char)
    requires d < 10
    ensures IsDigit(c) && DigitValue(c) == d
  {
    ('0' as int + d) as char
  }

  predicate AllDigits(s: string) {
    forall i :: 0 <= i < |s| ==> IsDigit(s[i])
  }

  /** The value of a string of decimal digits, most significant first. */
  function DigitsValue(s: string): nat
    requires AllDigits(s)
  {
    if |s| == 0 then 0 else DigitsValue(s[..|s| - 1]) * 10 + DigitValue(s[|s| - 1])
  }

  /**
   * `Number(s)`: the empty string is 0, an optionally signed string of
   * digits is its value, anything else is NaN.
   */
  function NumberOf(s: string): (n: Num)
    ensures s == "" ==> n == Int(0)
    ensures AllDigits(s) ==> n == Int(DigitsValue(s))
    ensures |s| > 1 && s[0] == '-' && AllDigits(s[1..]) ==> n == Int(-(DigitsValue(s[1..]) as int))
    ensures |s| > 0 && !IsDigit(s[0]) && s[0] != '-' && s[0] != '+' ==> n == NaN
  {
    if |s| == 0 then Int(0)
    else if AllDigits(s) then Int(DigitsValue(s))
    else if (s[0] == '-' || s[0] == '+') && |s| > 1 && AllDigits(s[1..]) then
      Int(if s[0] == '-' then -(DigitsValue(s[1..]) as int) else DigitsValue(s[1..]))
    else NaN
  }

  /** The length of the longest prefix of `s` made of digits. */
  function DigitRun(s: string): (k: nat)
    ensures k <= |s| && AllDigits(s[..k])
    ensures k < |s| ==> !IsDigit(s[k])
  {
    if |s| == 0 || !IsDigit(s[0]) then 0
    else
      var k := 1 + DigitRun(s[1..]);
      assert s[..k] == [s[0]] + s[1..][..k - 1];
      k
  }

  /**
   * `parseInt(s)`: an optional sign followed by the longest run of digits;
   * NaN when there is no digit there. Trailing characters are ignored.
   */
  function ParseInt(s: string): (n: Num)
    ensures |s| > 0 && IsDigit(s[0]) ==> n.Int? && n.value >= 0
    ensures |s| > 0 && IsDigit(s[0]) ==> n == Int(DigitsValue(s[..DigitRun(s)]))
    ensures |s| > 0 && !IsDigit(s[0]) && s[0] != '-' && s[0] != '+' ==> n == NaN
    ensures |s| == 0 ==> n == NaN
  {
    var signed := |s| > 0 && (s[0] == '-' || s[0] == '+');
    var body := if signed then s[1..] else s;
    var k := DigitRun(body);
    if k == 0 then NaN
    else Int(if signed && s[0] == '-' then -(DigitsValue(body[..k]) as int) else DigitsValue(body[..k]))
  }

  /** `n.toString()` for a natural number. */
  function NatToString(n: nat): (s: string)
    ensures |s| > 0 && AllDigits(s)
    ensures DigitsValue(s) == n
    ensures s[0] != '0' || n == 0
  {
    if n < 10 then [DigitChar(n)]
    else
      var s := NatToString(n / 10) + [DigitChar(n % 10)];
      assert s[..|s| - 1] == NatToString(n / 10);
      s
  }

  /** `n.toString()` for an integer. */
  function IntToString(n: int): string {
    if n < 0 then "-" + NatToString(-n) else NatToString(n)
  }

  /** `Number` reads back what `toString` writes. */
  lemma NumberOfIntToString(n: int)
    ensures NumberOf(IntToString(n)) == Int(n)
  {
    if n < 0 {
      var s := IntToString(n);
      assert s[1..] == NatToString(-n);
      assert !AllDigits(s) by { assert !IsDigit(s[0]); }
    }
  }

  /** Two integers print the same exactly when they are equal. */
  lemma IntToStringInjective(a: int, b: int)
    ensures IntToString(a) == IntToString(b) <==> a == b
  {
    NumberOfIntToString(a);
    NumberOfIntToString(b);
  }

  /** On a non-empty string of digits `parseInt` and `Number` agree. */
  lemma ParseIntOfDigits(s: string)
    requires |s| > 0 && AllDigits(s)
    ensures ParseInt(s) == NumberOf(s)
  {
    assert s[..|s|] == s;
  }
}

=== FILE: options.dfy ===
/** The optional value used where JavaScript yields `undefined`. */
module Options {
  datatype Option<T> = None | Some(value: T)
}

=== FILE: sequences.dfy ===
/**
 * Order-preserving subsequences, duplicate-free lists and the insertion-ordered
 * de-duplication that `[...new Set(xs)]` performs.
 */
module Sequences {

  /** `a` is obtained from `b` by deleting elements, keeping the order of the rest. */
  predicate Subseq<T(==)>(a: seq<T>, b: seq<T>)
    decreases |b|
  {
    if |a| == 0 then true
    else if |b| == 0 then false
    else (a[0] == b[0] && Subseq(a[1..], b[1..])) || Subseq(a, b[1..])
  }

  /** Deleting elements never makes a list longer, and every kept element was there. */
  lemma {:induction false} SubseqBounds<T>(a: seq<T>, b: seq<T>)
    requires Subseq(a, b)
    ensures |a| <= |b|
    ensures forall x :: x in a ==> x in b
    decreases |b|
  {
    if |a| != 0 {
      if a[0] == b[0] && Subseq(a[1..], b[1..]) {
        SubseqBounds(a[1..], b[1..]);
        assert forall x :: x in a ==> x == a[0] || x in a[1..];
      } else {
        SubseqBounds(a, b[1..]);
      }
    }
  }

  /** The elements of `xs` that satisfy `p`, in order: `xs.filter(p)`. */
  function Filter<T>(p: T -> bool, xs: seq<T>): seq<T> {
    if |xs| == 0 then [] else (if p(xs[0]) then [xs[0]] else []) + Filter(p, xs[1..])
  }

  /** Every list is a subsequence of itself. */
  lemma {:induction false} SubseqReflexive<T>(a: seq<T>)
    ensures Subseq(a, a)
    decreases |a|
  {
    if |a| != 0 {
      SubseqReflexive(a[1..]);
    }
  }

  predicate NoDuplicates<T(==)>(xs: seq<T>) {
    forall i, j :: 0 <= i < j < |xs| ==> xs[i] != xs[j]
  }

  /** The position of the first occurrence of `x` in `xs`. */
  function IndexOf<T(==)>(xs: seq<T>, x: T): (k: nat)
    requires x in xs
    ensures k < |xs| && xs[k] == x && x !in xs[..k]
  {
    if xs[0] == x then 0
    else
      var k := 1 + IndexOf(xs[1..], x);
      assert xs[..k] == [xs[0]] + xs[1..][..k - 1];
      k
  }

  /** A position holding `x` with no earlier `x` is the first occurrence. */
  lemma IndexOfUnique<T>(xs: seq<T>, x: T, k: nat)
    requires k < |xs| && xs[k] == x && x !in xs[..k]
    ensures IndexOf(xs, x) == k
  {
    var p := IndexOf(xs, x);
    assert forall i :: 0 <= i < k ==> xs[..k][i] == xs[i];
    assert forall i :: 0 <= i < p ==> xs[..p][i] == xs[i];
  }

  /** The elements of `r` appear in the order of their first occurrences in `xs`. */
  predicate FirstOccurrenceOrder<T(==)>(r: seq<T>, xs: seq<T>)
    requires forall x :: x in r ==> x in xs
  {
    forall i, j :: 0 <= i < j < |r| ==> IndexOf(xs, r[i]) < IndexOf(xs, r[j])
  }

  /**
   * `[...new Set(xs)]`: insertion into a set keeps the first occurrence of
   * every value, and iterating the set yields values in insertion order.
   */
  method Distinct<T(==)>(xs: seq<T>) returns (r: seq<T>)
    ensures NoDuplicates(r)
    ensures forall x :: x in r <==> x in xs
    ensures FirstOccurrenceOrder(r, xs)
  {
    r := [];
    var seen: set<T> := {};
    for k := 0 to |xs|
      invariant forall x :: x in seen <==> x in r
      invariant forall x :: x in r <==> x in xs[..k]
      invariant NoDuplicates(r)
      invariant forall i :: 0 <= i < |r| ==> r[i] in xs && IndexOf(xs, r[i]) < k
      invariant forall i, j :: 0 <= i < j < |r| ==> IndexOf(xs, r[i]) < IndexOf(xs, r[j])
    {
      assert xs[..k + 1] == xs[..k] + [xs[k]];
      if xs[k] !in seen {
        var x := xs[k];
        IndexOfUnique(xs, x, k);
        r := r + [x];
        seen := seen + {x};
      }
    }
    assert xs[..|xs|] == xs;
  }
}

=== FILE: strings.dfy ===
/**
 * String helpers shared by the model: JavaScript's `toLowerCase`,
 * `toUpperCase`, `startsWith`, `includes` and the accent stripping done by
 * `normalize('NFD')` followed by the removal of combining marks.
 *
 * Case mapping covers ASCII and the Latin-1 Supplement block (which holds
 * every accented letter of Portuguese); other characters are left unchanged.
 */
module Strings {

  /** An upper-case letter of ASCII or of the Latin-1 Supplement. */
  predicate IsUpperLetter(c: char) {
    ('A' <= c <= 'Z') || ('\U{C0}' <= c <= '\U{DE}' && c != '\U{D7}')
  }

  /** `toLowerCase` on one character. */
  function LowerChar(c: char): (r: char)
    ensures !IsUpperLetter(r)
    ensures !IsUpperLetter(c) ==> r == c
  {
    if IsUpperLetter(c) then (c as int + 32) as char else c
  }

  /** `toLowerCase` on a string: a character-wise map. */
  function Lower(s: string): (r: string)
    ensures |r| == |s|
    ensures forall i :: 0 <= i < |s| ==> r[i] == LowerChar(s[i])
  {
    seq(|s|, i requires 0 <= i < |s| => LowerChar(s[i]))
  }

  /** A lower-cased string contains no upper-case letter. */
  lemma LowerHasNoUpper(s: string, i: int)
    requires 0 <= i < |s|
    ensures !IsUpperLetter(Lower(s)[i])
  {
  }

  /** `toUpperCase` on one character; `ß` becomes the two letters `SS`. */
  function UpperChar(c: char): (r: string)
    ensures |r| == (if c == '\U{DF}' then 2 else 1)
  {
    if 'a' <= c <= 'z' || ('\U{E0}' <= c <= '\U{FE}' && c != '\U{F7}') then [(c as int - 32) as char]
    else if c == '\U{DF}' then "SS"
    else if c == '\U{FF}' then "\U{178}"
    else if c == '\U{B5}' then "\U{39C}"
    else [c]
  }

  /** `toUpperCase` on a string. */
  function Upper(s: string): (r: string)
    ensures (forall i :: 0 <= i < |s| ==> s[i] != '\U{DF}') ==> |r| == |s|
  {
    if |s| == 0 then "" else UpperChar(s[0]) + Upper(s[1..])
  }

  /** `s.startsWith(prefix)`. */
  predicate StartsWith(s: string, prefix: string) {
    |prefix| <= |s| && s[..|prefix|] == prefix
  }

  /** `s.includes(t)`: some suffix of `s` starts with `t`. */
  function Includes(s: string, t: string): (r: bool)
    ensures r <==> exists i :: 0 <= i <= |s| && StartsWith(s[i..], t)
    decreases |s|
  {
    if StartsWith(s, t) then
      assert StartsWith(s[0..], t);
      true
    else if |s| == 0 then
      false
    else
      var r := Includes(s[1..], t);
      assert forall i :: 1 <= i <= |s| ==> s[1..][i - 1..] == s[i..];
      r
  }

  /** The base letter a Latin-1 letter decomposes to under NFD; other characters unchanged. */
  function BaseLetter(c: char): char {
    if '\U{E0}' <= c <= '\U{E5}' then 'a'
    else if c == '\U{E7}' then 'c'
    else if '\U{E8}' <= c <= '\U{EB}' then 'e'
    else if '\U{EC}' <= c <= '\U{EF}' then 'i'
    else if c == '\U{F1}' then 'n'
    else if '\U{F2}' <= c <= '\U{F6}' then 'o'
    else if '\U{F9}' <= c <= '\U{FC}' then 'u'
    else if c == '\U{FD}' || c == '\U{FF}' then 'y'
    else if '\U{C0}' <= c <= '\U{C5}' then 'A'
    else if c == '\U{C7}' then 'C'
    else if '\U{C8}' <= c <= '\U{CB}' then 'E'
    else if '\U{CC}' <= c <= '\U{CF}' then 'I'
    else if c == '\U{D1}' then 'N'
    else if '\U{D2}' <= c <= '\U{D6}' then 'O'
    else if '\U{D9}' <= c <= '\U{DC}' then 'U'
    else if c == '\U{DD}' then 'Y'
    else c
  }

  /** A combining diacritical mark, U+0300 to U+036F. */
  predicate IsCombiningMark(c: char) {
    '\U{300}' <= c <= '\U{36F}'
  }

  /** NFD decomposition followed by deletion of the combining marks. */
  function StripAccents(s: string): (r: string)
    ensures |r| <= |s|
    ensures forall i :: 0 <= i < |r| ==> !IsCombiningMark(r[i])
  {
    if |s| == 0 then ""
    else if IsCombiningMark(s[0]) then StripAccents(s[1..])
    else [BaseLetter(s[0])] + StripAccents(s[1..])
  }

  /**
   * What stripping leaves is fully decomposed: every character is its own
   * base letter, and an input without upper-case letters gives an output
   * without them.
   */
  lemma {:induction false} StripAccentsDecomposed(s: string)
    ensures forall i :: 0 <= i < |StripAccents(s)| ==> BaseLetter(StripAccents(s)[i]) == StripAccents(s)[i]
    ensures (forall i :: 0 <= i < |s| ==> !IsUpperLetter(s[i])) ==>
      forall i :: 0 <= i < |StripAccents(s)| ==> !IsUpperLetter(StripAccents(s)[i])
  {
    if |s| > 0 {
      StripAccentsDecomposed(s[1..]);
    }
  }

  /** Stripping accents twice is stripping them once. */
  lemma {:induction false} StripAccentsIdempotent(s: string)
    requires forall i :: 0 <= i < |s| ==> BaseLetter(s[i]) == s[i] && !IsCombiningMark(s[i])
    ensures StripAccents(s) == s
  {
    if |s| > 0 {
      StripAccentsIdempotent(s[1..]);
    }
  }
}

=== FILE: types.dfy ===
/**
 * The event tree of the calendar feed: years hold months, months hold
 * events. A missing `cidade` or `tipo` behaves like the empty string in
 * every use the filters make of it, so both are plain strings here.
 */
module Types {
  import opened Sequences

  /** One event (`Evento2`): `data` holds the day-of-month markers, first to last. */
  datatype Event = Event(nome: string, data: seq<string>, url: string, cidade: string, uf: string, tipo: string)

  /** A month group (`Meses`). */
  datatype Month = Month(mes: string, arquivado: bool, eventos: seq<Event>)

  /** A year group (`Evento`). */
  datatype Year = Year(ano: int, arquivado: bool, meses: seq<Month>)

  /** No year without months, no month without events. */
  ghost predicate NoEmptyGroups(ys: seq<Year>) {
    forall y :: y in ys ==> |y.meses| > 0 && forall m :: m in y.meses ==> |m.eventos| > 0
  }

  /** Month `a` is month `b` with some events removed and its other fields unchanged. */
  predicate MonthWithin(a: Month, b: Month) {
    a.mes == b.mes && a.arquivado == b.arquivado && Subseq(a.eventos, b.eventos)
  }

  /** `a` is an order-preserving selection of pruned months of `b`. */
  predicate MonthsWithin(a: seq<Month>, b: seq<Month>)
    decreases |b|
  {
    if |a| == 0 then true
    else if |b| == 0 then false
    else (MonthWithin(a[0], b[0]) && MonthsWithin(a[1..], b[1..])) || MonthsWithin(a, b[1..])
  }

  /** Year `a` is year `b` with some months pruned and its other fields unchanged. */
  predicate YearWithin(a: Year, b: Year) {
    a.ano == b.ano && a.arquivado == b.arquivado && MonthsWithin(a.meses, b.meses)
  }

  /** `a` is an order-preserving sub-tree of `b`. */
  predicate YearsWithin(a: seq<Year>, b: seq<Year>)
    decreases |b|
  {
    if |a| == 0 then true
    else if |b| == 0 then false
    else (YearWithin(a[0], b[0]) && YearsWithin(a[1..], b[1..])) || YearsWithin(a, b[1..])
  }

  /** An event together with the fields of the groups it sits in. */
  datatype Entry = Entry(ano: int, anoArquivado: bool, mes: string, mesArquivado: bool, ev: Event)

  function EventEntries(ano: int, aa: bool, mes: string, ma: bool, evs: seq<Event>): (r: seq<Entry>)
    ensures |r| == |evs|
    ensures forall i :: 0 <= i < |r| ==> r[i] == Entry(ano, aa, mes, ma, evs[i])
  {
    if |evs| == 0 then [] else [Entry(ano, aa, mes, ma, evs[0])] + EventEntries(ano, aa, mes, ma, evs[1..])
  }

  function MonthEntries(ano: int, aa: bool, ms: seq<Month>): (r: seq<Entry>)
    ensures forall e :: e in r ==> e.ano == ano && e.anoArquivado == aa
  {
    if |ms| == 0 then []
    else EventEntries(ano, aa, ms[0].mes, ms[0].arquivado, ms[0].eventos) + MonthEntries(ano, aa, ms[1..])
  }

  /** The events of a tree in reading order, each with its year and month. */
  function Entries(ys: seq<Year>): seq<Entry> {
    if |ys| == 0 then [] else MonthEntries(ys[0].ano, ys[0].arquivado, ys[0].meses) + Entries(ys[1..])
  }

  /** The number of events in a tree. */
  function EventCount(ys: seq<Year>): nat {
    |Entries(ys)|
  }
}
